=== FILE: README.md ===
# Battle copilot: a Dafny model

This project models the decision logic of the MaaAssistantArknights battle
copilot. That is the part that plays a JSON battle script ("copilot") against the
game, and that runs the Stationary Security Service (SSS) game mode on top of it.

- **Script executor** (`BattleProcessTask`): one battle attempt.
  - Clears its state and loads the stage geometry.
  - Resolves the script's group placeholders to concrete operators (`to_group`)
    and seeds their skill-usage policies.
  - Walks the action list in order. Each action first waits for its counter
    conditions (cost delta, kills, absolute cost, cooling count, and availability
    for a Deploy); its operator name is then resolved and it is dispatched.
  - A successful BulletTime action makes the next Retreat or UseSkill use an
    abbreviated tap, until an operator action succeeds.
- **SSS policy** (`SSSBattleProcessTask`):
  - Loads a stage's copilot data and collects its core and scripted-deploy names.
  - Runs the derived actions (DrawCard, CheckIfStartOver, GetDrops).
  - Makes the per-tick deployment decision over an ordered strategy list with
    role quotas.
- **SSS stage manager** (`SSSStageManagerTask`): recognises the current stage by
  its name, fights up to its retry budget plus one attempts, and settles (gives
  the run up) on an unknown stage or when no attempt was won.

Everything the original reads from the device is a parameter here:
- screen captures, the deployment panel, OCR results;
- the results of taps and sub-tasks;
- the cancellation flag.

Each loop runs over a finite recorded trace of such answers, and every function
reports when the trace runs out.

Files (one module each):
- `types.dfy` (`BattleTypes`): action kinds, roles, operators, actions.
- `groups.dfy` (`Groups`): placeholder resolution.
- `waits.dfy` (`Waits`): the poll loops of `wait_condition`.
- `executor.dfy` (`Executor`): `do_action`, bullet time and the action loop.
- `sss_policy.dfy` (`SssPolicy`): the SSS battle task.
- `sss_stage.dfy` (`SssStage`): the stage manager.

Where the documented behaviour and the code differ, the model follows the code. The two exceptions are the throws listed under Findings: the executor runs the corrected bullet-time entry and action labels there (see "## Left out"). The differences:
- **Cost-delta wait.** The comparison direction follows the sign of
  `baseline + delta`, not the sign of `delta`. A negative delta that does not
  take the baseline below zero compares with `>=`, so the wait is met at once
  (`Waits.NegativeDeltaMetAtOnce`, `Waits.CostDeltaScenario`).
- **Stage manager after a lost stage.** When a stage cannot be won, the manager
  settles and then goes back to its loop head; it does not stop
  (`SssStage.RunManager`).
- **Retry budget.** The per-stage retry budget is read and never decremented.
- **Bullet-time flag.** A failed Deploy, Retreat or UseSkill leaves the flag set.

## Model

| member | source | states |
|---|---|---|
| `BattleTypes.FindOper` | src/MaaCore/Task/Miscellaneous/BattleProcessTask.cpp:323-324 | The panel lookup by name finds an operator of that name on the panel, and finds nothing exactly when no panel operator has that name. |
| `BattleTypes.ActionLabelAsWritten` | src/MaaCore/Task/Miscellaneous/BattleProcessTask.cpp:217-233 | The table as written has no label for exactly the GetDrops kind, and every label it has is non-empty. |
| `BattleTypes.GetDropsHasNoLabelAsWritten` | src/MaaCore/Task/Miscellaneous/BattleProcessTask.cpp:217-233 | The notification table as written has a label for every action kind except GetDrops. |
| `BattleTypes.ActionLabel` | src/MaaCore/Task/Miscellaneous/BattleProcessTask.cpp:215-239 | Every kind gets a non-empty notification label, and the label agrees with the written table wherever that table has an entry. |
| `BattleTypes.ActionLabelsDistinct` | src/MaaCore/Task/Miscellaneous/BattleProcessTask.cpp:217-229 | Distinct kinds are announced under distinct labels. |
| `Groups.AddActionNames` | src/MaaCore/Task/Miscellaneous/BattleProcessTask.cpp:111-117 | Existing entries are kept. Every non-empty action name becomes a key. Each added key maps to itself and is the name of some action. |
| `Groups.Place` | src/MaaCore/Task/Miscellaneous/BattleProcessTask.cpp:95-117 | The placement keeps every allocated entry. It maps every panel name the allocator did not use to itself (unless that name is already a group key). It contains every non-empty action name. Every key comes from the allocation, the panel or an action, and every key outside the allocation maps to itself. |
| `Groups.FirstUsage` | src/MaaCore/Task/Miscellaneous/BattleProcessTask.cpp:124-128 | Nothing is found exactly when no declared member has the name; otherwise the result is the usage of the first member with that name. |
| `Groups.SeedSkillUsage` | src/MaaCore/Task/Miscellaneous/BattleProcessTask.cpp:119-129 | Seeding never replaces an existing usage entry. Every placeholder whose resolved operator is a declared member of its group gets an entry for that operator. |
| `Groups.SeedFirstDeclarationWins` | src/MaaCore/Task/Miscellaneous/BattleProcessTask.cpp:119-129 | An entry that seeding adds carries the usage declared by the first placeholder, in iteration order, that declares that operator. |
| `Groups.TouchGroups` | src/MaaCore/Task/Miscellaneous/BattleProcessTask.cpp:119-120 | Looking up every placeholder in the group table adds an empty group for each missing key and leaves existing groups unchanged. |
| `Groups.ToGroup` | src/MaaCore/Task/Miscellaneous/BattleProcessTask.cpp:81-132 | Grouping fails exactly when the allocator has no answer, and then changes nothing. Otherwise it installs the placement, seeds the usage table and touches the group table. |
| `Groups.GetNameFromGroup` | src/MaaCore/Task/Miscellaneous/BattleProcessTask.cpp:205-213 | Afterwards the name is a key and the result is its entry. Exactly that key is added, existing entries are unchanged, and a new name resolves to itself. |
| `Groups.ResolveIsStable` | src/MaaCore/Task/Miscellaneous/BattleProcessTask.cpp:205-213 | Resolving the same name twice changes nothing further and gives the same operator. |
| `Waits.CoolingCount` | src/MaaCore/Task/Miscellaneous/BattleProcessTask.cpp:305-306 | The cooling count is at most the panel size, and it is zero exactly when no operator on the panel is cooling; a one-operator panel counts one exactly when that operator is cooling. |
| `Waits.CoolingCountAppend` | src/MaaCore/Task/Miscellaneous/BattleProcessTask.cpp:305-306 | The count over two parts of the panel is the sum of their counts, so it is the number of cooling operators. |
| `Waits.Poll` | src/MaaCore/Task/Miscellaneous/BattleProcessTask.cpp:286-298 | A loop fails only with the in-battle flag cleared. A loop whose guard is false passes without reading a capture. A loop that finishes leaves the usage table and the battlefield unchanged. |
| `Waits.CostDeltaMet` | src/MaaCore/Task/Miscellaneous/BattleProcessTask.cpp:255-263 | The target (baseline plus delta) always meets the test. A positive delta from a non-negative baseline waits for the cost to reach the target. A target below zero waits for the cost to drop to it. A negative delta that keeps the target at or above zero compares with `>=`. |
| `Waits.PollStallsOnlyIfUndecided` | src/MaaCore/Task/Miscellaneous/BattleProcessTask.cpp:286-298 | An entered loop runs out of captures exactly when none of them requests cancellation, meets the condition or is out of battle. |
| `Waits.PollContinuesAtFirstDecisive` | src/MaaCore/Task/Miscellaneous/BattleProcessTask.cpp:286-298 | An entered loop that lets execution go on stopped at its first decisive capture. That capture requested cancellation or met the condition, and in the latter case the tracker holds its reading. |
| `Waits.PollFailsAtFirstDecisive` | src/MaaCore/Task/Miscellaneous/BattleProcessTask.cpp:286-298 | An entered loop that fails met an out-of-battle capture before any capture that requested cancellation or met the condition. |
| `Waits.PollStopsAtFirstDecisive` | src/MaaCore/Task/Miscellaneous/BattleProcessTask.cpp:286-298 | Given the first decisive capture, the loop fails exactly when that capture neither requests cancellation nor meets the condition and is out of battle; otherwise execution goes on from that capture. |
| `Waits.PollWaited` | src/MaaCore/Task/Miscellaneous/BattleProcessTask.cpp:286-298 | A loop that lets execution go on either was not entered and read nothing, or went on from a capture such that every earlier capture was undecided, and that capture requested cancellation or met the condition with the tracker holding its reading. |
| `Waits.PollGaveUp` | src/MaaCore/Task/Miscellaneous/BattleProcessTask.cpp:286-298 | A loop that fails was entered and failed at its first decisive capture, which was out of battle and neither requested cancellation nor met the condition. A loop that stalls saw no decisive capture. |
| `Waits.RunStage` | src/MaaCore/Task/Miscellaneous/BattleProcessTask.cpp:252-270 | Any one wait, the cost-delta loop included, fails only with the in-battle flag cleared, and a finished wait keeps the usage table and the battlefield. How it went on or gave up, capture by capture, is stated by `Waits.RunStageWaited` and `Waits.RunStageGaveUp`. |
| `Waits.RunStageWaited` | src/MaaCore/Task/Miscellaneous/BattleProcessTask.cpp:252-270 | A wait that lets execution go on waited as `PollWaited` says; for a cost-delta wait, the baseline is the cost on the first capture and the target is that baseline plus the delta. |
| `Waits.RunStageGaveUp` | src/MaaCore/Task/Miscellaneous/BattleProcessTask.cpp:252-270 | A wait that fails or stalls was enabled and gave up as `PollGaveUp` says; for a cost-delta wait the baseline is the first capture's cost. |
| `Waits.PollAll` | src/MaaCore/Task/Miscellaneous/BattleProcessTask.cpp:252-315 | The counter waits run in sequence. A failure means the battle ended. When no wait is enabled, nothing is read and nothing changes. How the sequence went on or stopped, capture by capture, is stated by `Waits.PollAllWaited` and `Waits.PollAllGaveUp`. |
| `Waits.CounterWaits` | src/MaaCore/Task/Miscellaneous/BattleProcessTask.cpp:252-315 | The counter waits are cost delta, kills, absolute cost and cooling count, in that order, with the action's values. Each is enabled exactly under the source's test: a non-zero cost delta, more kills than known, a non-zero cost, a non-negative cooling count. |
| `Waits.PollAllWaited` | src/MaaCore/Task/Miscellaneous/BattleProcessTask.cpp:252-315 | Counter waits that let execution go on waited in turn: each one went on from the tracker and captures the previous one left, as `RunStageWaited` says. |
| `Waits.PollAllGaveUp` | src/MaaCore/Task/Miscellaneous/BattleProcessTask.cpp:252-315 | Counter waits that fail or stall do so in one enabled wait that gave up as `RunStageGaveUp` says, after every earlier wait went on in turn. |
| `Waits.WaitCondition` | src/MaaCore/Task/Miscellaneous/BattleProcessTask.cpp:241-335 | A wait aborts only out of battle. Only a Deploy outside bullet time resolves (and so may add) a placeholder, and that name is then resolved. An action with no conditions proceeds at once without reading a capture. Its outcome is tied to the captures by `Waits.WaitConditionWaited` and `Waits.WaitConditionGaveUp`. |
| `Waits.WaitConditionWaited` | src/MaaCore/Task/Miscellaneous/BattleProcessTask.cpp:241-335 | An action that proceeds waited for its counter waits in turn. A Deploy outside bullet time then waited for its resolved operator: that operator is available on the capture execution goes on from, unless that capture requested cancellation or the battle had ended. |
| `Waits.AvailableWaited` | src/MaaCore/Task/Miscellaneous/BattleProcessTask.cpp:318-332 | A wait for an operator that lets execution go on leaves it available on the current capture, unless that capture requested cancellation or the battle had ended. |
| `Waits.WaitConditionGaveUp` | src/MaaCore/Task/Miscellaneous/BattleProcessTask.cpp:241-335 | An action whose waits abort or get stuck stopped in one of them: a counter wait gave up after the earlier ones went on, or, for a Deploy outside bullet time, every counter wait went on and the wait for the resolved operator gave up. An abort always saw an out-of-battle capture that neither requested cancellation nor met its condition. |
| `Waits.NegativeDeltaMetAtOnce` | src/MaaCore/Task/Miscellaneous/BattleProcessTask.cpp:259-261 | A negative delta that does not take the baseline below zero is met by the baseline itself. |
| `Waits.CostDeltaScenario` | src/MaaCore/Task/Miscellaneous/BattleProcessTask.cpp:252-270 | A cost-delta wait of -10 at cost 20 is over on its first capture. |
| `Executor.BulletTimeAsLastActionThrows` | src/MaaCore/Task/Miscellaneous/BattleProcessTask.cpp:342-346 | The bound test as written lets a BulletTime action that is last in the script reach the element access past the end. |
| `Executor.EnterBulletTimeAsWritten` | src/MaaCore/Task/Miscellaneous/BattleProcessTask.cpp:337-365 | As written, the entry reaches the throwing access exactly when the next index equals the script length. An index beyond it reports no bullet time. A tap is made only for a following operator action, and success needs that tap to succeed. |
| `Executor.EnterBulletTime` | src/MaaCore/Task/Miscellaneous/BattleProcessTask.cpp:337-365 | Bullet time taps in advance exactly when a next action exists and is a Deploy, UseSkill or Retreat (on the panel for a Deploy, on the field by location or name otherwise). It succeeds exactly when that tap does. |
| `Executor.EnterBulletTimeAgrees` | src/MaaCore/Task/Miscellaneous/BattleProcessTask.cpp:337-365 | Wherever the written bound test does not lead to the throw, the corrected entry behaves the same. |
| `Executor.Dispatch` | src/MaaCore/Task/Miscellaneous/BattleProcessTask.cpp:153-198 | The abbreviated taps are used exactly for Retreat and UseSkill in bullet time. Outside it, Retreat and UseSkill go to the tile when the action has one and by name otherwise, and a Deploy goes to the resolved operator at the action's tile and direction. SwitchSpeed, MoveCamera and SkillDaemon issue their own commands. Exactly the non-base kinds go to the derived hook, for this action. SkillUsage and Output make no call and succeed. Every other kind except BulletTime returns its call's result. A BulletTime returns what entering bullet time for the next action returns, and succeeds only before an operator action. |
| `Executor.FlagAfter` | src/MaaCore/Task/Miscellaneous/BattleProcessTask.cpp:154-176 | The flag is set exactly after a successful BulletTime, or when it was set before and no operator action has succeeded. |
| `Executor.DoAction` | src/MaaCore/Task/Miscellaneous/BattleProcessTask.cpp:134-203 | A step gets stuck exactly when its waits ran out of captures. It is dispatched exactly when its waits proceed. An abort keeps the tracker and placement the waits left, makes no call, fails and leaves the flag alone. A dispatch resolves the name in the placement the waits left, refreshes the panel after a pre-delay, and its command and result are `Dispatch`'s. The step keeps every earlier resolution and moves the flag as `FlagAfter` says. Only a SkillUsage action changes the usage table, and only its own entry. |
| `Executor.RunFrom` | src/MaaCore/Task/Miscellaneous/BattleProcessTask.cpp:44-46 | For any step that keeps the step law, the loop runs the actions in order. Before each logged action, no cancellation was requested and the battle was on. Each entry is what the step returned on the state left by the previous one (`Stepped`). It completes exactly when all of them ran. It halts exactly when the battle had ended, whatever cancellation would answer, or a cancellation was requested before the next action. It runs out of trace only in battle, when no step is recorded for the next action or that step got stuck. Its log entries are each coherent, chained through the bullet-time flag and resolved in the final placement. |
| `Executor.Run` | src/MaaCore/Task/Miscellaneous/BattleProcessTask.cpp:44-46 | The action loop over the whole script has the same guarantees from the first action on, with `do_action` on each action's recorded answers as the step. No logged action had a cancellation before it. It runs out of trace only in battle, when no step is recorded for the next action or `wait_condition` for it ran out of captures. |
| `Executor.OutOfBattleHalts` | src/MaaCore/Task/Miscellaneous/BattleProcessTask.cpp:44-46 | A run that starts out of battle halts before the first action with nothing logged, even when no answer to the cancellation test is recorded. |
| `Executor.CancelBeforeFirstHalts` | src/MaaCore/Task/Miscellaneous/BattleProcessTask.cpp:44-46 | A cancellation requested before the first action stops the loop before it: nothing is logged and the run halts. |
| `Executor.RunFirstEntry` | src/MaaCore/Task/Miscellaneous/BattleProcessTask.cpp:44-46 | The first log entry is what `do_action` does with the first action from the starting state, and the rest of the log is stepped from the state it leaves. |
| `Executor.BulletTimeForwarding` | src/MaaCore/Task/Miscellaneous/BattleProcessTask.cpp:156-175 | After a successful BulletTime, the next dispatched Retreat or UseSkill uses the abbreviated tap. After a successful operator action, it does not. |
| `Executor.StartAttempt` | src/MaaCore/Task/Miscellaneous/BattleProcessTask.cpp:31-61 | The attempt ends early exactly when the stage geometry cannot be loaded. Otherwise it starts outside bullet time. An allocator failure is ignored and leaves the placement empty. A success places every named action of the list it is given, and every key comes from the allocation, the panel or that list. |
| `SssPolicy.SetStageName` | src/MaaCore/Task/SSS/SSSBattleProcessTask.cpp:12-38 | An unknown stage changes nothing and fails. A known one loads its data and adds exactly its cores and scripted Deploy names to the accumulated sets, and succeeds exactly when its map loads. |
| `SssPolicy.StartSssAttempt` | src/MaaCore/Task/Miscellaneous/BattleProcessTask.cpp:111-117 | An SSS attempt places only names from the allocation or the panel, because the naming pass reads the base task's action list, which is not filled from the SSS stage data (set at SSSBattleProcessTask.cpp:20). |
| `SssPolicy.CoreOpers` | src/MaaCore/Task/SSS/SSSBattleProcessTask.cpp:69-74 | The core operators are exactly the panel operators named as cores; a one-operator panel keeps that operator exactly when it is a core. |
| `SssPolicy.CoreOpersAppend` | src/MaaCore/Task/SSS/SSSBattleProcessTask.cpp:69-74 | The core operators of two parts of the panel are those of the first part followed by those of the second, so panel order is kept. |
| `SssPolicy.ToolMen` | src/MaaCore/Task/SSS/SSSBattleProcessTask.cpp:71-80 | The tool operators are exactly the panel operators that are neither cores nor scripted Deploy names; a one-operator panel keeps that operator exactly when it is a tool operator. |
| `SssPolicy.ToolMenAppend` | src/MaaCore/Task/SSS/SSSBattleProcessTask.cpp:71-80 | The tool operators of two parts of the panel are those of the first part followed by those of the second, so panel order is kept. |
| `SssPolicy.DefaultToolUsage` | src/MaaCore/Task/SSS/SSSBattleProcessTask.cpp:75-78 | Recorded usages are kept. Every tool operator without one gets the whenever-ready policy. No other entry is added. |
| `SssPolicy.FirstAvailable` | src/MaaCore/Task/SSS/SSSBattleProcessTask.cpp:103-106 | The pick is the first tool operator in panel order that is available and has the role; there is none exactly when no such operator exists. |
| `SssPolicy.QuotaScan` | src/MaaCore/Task/SSS/SSSBattleProcessTask.cpp:95-124 | The scan passes exactly when no open quota has any tool operator of its role. Otherwise it stops at an open quota with all earlier open quotas roleless. It deploys that quota's first available operator, or waits when its role is present but none is available. |
| `SssPolicy.Decide` | src/MaaCore/Task/SSS/SSSBattleProcessTask.cpp:82-125 | The tick is idle exactly when every strategy is passed over. Otherwise it acts on the first strategy not passed over: it deploys the core once the quotas are met and the core is available, it deploys by the quota scan, or it waits. |
| `SssPolicy.ConsumeQuota` | src/MaaCore/Task/SSS/SSSBattleProcessTask.cpp:107 | Using a quota lowers exactly that quota by one and changes nothing else. |
| `SssPolicy.DoStrategicAction` | src/MaaCore/Task/SSS/SSSBattleProcessTask.cpp:59-134 | Out of battle it fails and changes nothing. In battle it seeds the tool usages, and its decision is `Decide` over the loaded strategies with the panel's core and tool operators. A deployment returns the deployment's result and skips the side actions. Waiting or idling draws a card as configured, uses all ready skills and succeeds. Only a tool deployment consumes a quota. |
| `SssPolicy.HigherPriorityBlocks` | src/MaaCore/Task/SSS/SSSBattleProcessTask.cpp:112-124 | A strategy is deployed for only if no earlier strategy has an open quota with any tool operator of its role, available or not. |
| `SssPolicy.ToolDeploymentPicksFirstAvailable` | src/MaaCore/Task/SSS/SSSBattleProcessTask.cpp:103-110 | A tool deployment is for an open quota, and goes to the first available tool operator of its role in panel order. |
| `SssPolicy.CheckIfStartOver` | src/MaaCore/Task/SSS/SSSBattleProcessTask.cpp:144-173 | The check always succeeds. It abandons exactly when the named operator is neither on the panel nor on the field, or some demanded role has fewer panel operators than demanded. |
| `SssPolicy.DerivedStepReturnsHookResult` | src/MaaCore/Task/Miscellaneous/BattleProcessTask.cpp:195-196 | With the SSS hook answering, a dispatched DrawCard, CheckIfStartOver or GetDrops step records a derived command and returns the hook's result: CheckIfStartOver always succeeds, DrawCard returns the draw result and GetDrops the drop task's result. |
| `SssPolicy.DoDerivedAction` | src/MaaCore/Task/SSS/SSSBattleProcessTask.cpp:40-57 | Exactly the base kinds are unhandled, and they fail. CheckIfStartOver succeeds with the start-over verdict. GetDrops returns the drop task's result and cancels exactly when no drop order is configured. DrawCard returns the draw result. |
| `SssStage.PreprocessData` | src/MaaCore/Task/SSS/SSSStageManagerTask.cpp:61-66 | Every stage of the table gets its configured retry count, and other entries are kept. |
| `SssStage.Best` | src/MaaCore/Task/SSS/SSSStageManagerTask.cpp:76-77 | The best result has the highest score and is the earliest among equal scores. |
| `SssStage.AnalyzeStage` | src/MaaCore/Task/SSS/SSSStageManagerTask.cpp:68-89 | There is no stage exactly when recognition found nothing or its best text names no stage. A recognised stage is in the table, and no text other than its own scored higher than its own text did. |
| `SssStage.RunAttempts` | src/MaaCore/Task/SSS/SSSStageManagerTask.cpp:40-47 | The attempts stop at the first won attempt. Otherwise all of the budget is used. The result is a success exactly when the last attempt made was won, and every earlier attempt was lost. |
| `SssStage.PlayRound` | src/MaaCore/Task/SSS/SSSStageManagerTask.cpp:22-56 | A round is unrecognised exactly when analysis fails. A fought round has its stage's budget plus one attempts, and is settled exactly when no attempt won and no stop was requested. |
| `SssStage.Plays` | src/MaaCore/Task/SSS/SSSStageManagerTask.cpp:22-56 | Each recorded round is played from the filled retry table, one play per round, in order. |
| `SssStage.Loop` | src/MaaCore/Task/SSS/SSSStageManagerTask.cpp:18-57 | Rounds are played in order while no stop is requested. Every round but the last goes on to the loop head. The run ends with an unknown stage exactly when its last round was unrecognised. |
| `SssStage.RunManager` | src/MaaCore/Task/SSS/SSSStageManagerTask.cpp:12-59 | The retry table is filled first. The rounds and the end are those of the loop over the rounds played from that table. Each fought stage gets its configured retries plus one attempts. An unrecognised stage is always the last round. After a stage that could not be won is settled, the manager plays the next round unless a stop is requested or the recorded rounds end (lines 48-57). |
| `SssStage.TwoRetriesGiveThreeAttempts` | src/MaaCore/Task/SSS/SSSStageManagerTask.cpp:35-47 | A stage with two retries whose attempts are all lost is tried three times and settled. |
| `SssStage.UnknownStageEndsRun` | src/MaaCore/Task/SSS/SSSStageManagerTask.cpp:22-32 | An unrecognised first stage ends the run after one round. |

## Left out

- Vision, OCR and device calls (captures, the panel refresh, taps, the start button, settlement, card drawing and drop picking) are parameters. `BattleHelper`'s bodies are not part of this model, and its in-battle check is taken to clear the in-battle flag when it fails.
- The allocator `get_char_allocation_for_each_group` is not part of this model. Its answer is an input, as is the hash maps' iteration order.
- Timing is not modelled: `sleep_and_do_not_urgent`, pre- and post-delays and `std::this_thread::yield`. Only the panel refresh after a pre-delay is kept.
- The idle hook that wait loops call between captures (`do_strategic_action` and a new capture) is abstracted in the executor. Its effect on the screen arrives as the next capture. The executor is modelled with a hook that leaves the tracker and the quotas alone, which is the base task's hook. Under the SSS hook, the same waits and delays also add usage entries for tool operators (src/MaaCore/Task/SSS/SSSBattleProcessTask.cpp:78), lower quotas (:107) and deploy operators (:92, :109). `SssPolicy.DoStrategicAction` models one such tick on its own, but its effects are not fed back into a running wait.
- `Waits.Poll`, `Waits.RunStage`, `Waits.WaitCondition`: "a finished wait keeps the usage table and the battlefield" holds for the base task's hook only; under the SSS hook a wait can add tool-operator usage entries and change the field.
- `Executor.DoAction`: "only a SkillUsage action changes the usage table" holds for the base task's hook only, for the same reason.
- `Executor.StartAttempt`: the action list it is given is the base task's copilot actions. An SSS attempt passes none (`SssPolicy.StartSssAttempt`), because the naming pass (src/MaaCore/Task/Miscellaneous/BattleProcessTask.cpp:111) reads the base task's list, and an SSS task fills only its own stage data (src/MaaCore/Task/SSS/SSSBattleProcessTask.cpp:20). The other reads go through `get_combat_data`, which the headers (not part of this model) are taken to route to the SSS stage data.
- Notifications other than the action label (callbacks, logging, `doc`/`doc_color`) are left out, as is `MoveCamera`'s distance.
- `need_to_wait_until_end` / `wait_until_end` after the loop, `SkillDaemon`'s wait and SSS `wait_until_start` are left out: their bodies are not part of this model, so only their results are parameters.
- The stage manager's `comfirm_battle_complete` loop is left out: it only repeats until the screen is ready or a stop is requested, and the model starts each round after it.
- Every loop runs over a finite recorded trace; a trace that runs out is reported (`Stalled`, `StepStuck`, `TraceEnded`, `OutOfTrace`) rather than running forever.
- Exceptions other than the two under Findings are left out; the other `.at()` lookups are on keys the surrounding code has just ensured.
- `Executor.Dispatch`: a BulletTime that is the script's last action returns no command and fails, following the corrected `Executor.EnterBulletTime`; the code as written throws there (src/MaaCore/Task/Miscellaneous/BattleProcessTask.cpp:342-346, see Findings).
- `Executor.DoAction`: uses the corrected label table and bullet-time entry, so a GetDrops action is announced and runs, and a final BulletTime fails, where the code as written throws (src/MaaCore/Task/Miscellaneous/BattleProcessTask.cpp:233 and :346, see Findings).
- `Executor.RunFrom`: logs a GetDrops action and a final BulletTime as `DoAction` runs them, where the code as written throws out of the loop; a throw is not a run end of this model.
- `Executor.Run`: a script with a GetDrops action or ending in BulletTime runs on or completes, where `_run` as written throws out of `do_action`, for the same reason.
- `SssStage.Best`: ties go to the earliest result; the order the source's score sort gives equal scores is not modelled.
- `SssStage.Loop`: what a stop request at the loop head means is stated as an implication, not an if-and-only-if, because each round's plays are computed before the loop.
- `Executor.RunFrom`: is stated for any step that keeps `StepLaw`. `Executor.Run` instantiates it with `DoAction` on each action's recorded answers, so each log entry is tied to that call through `Stepped`.

## Findings

| source | as written | input that shows it | evidently intended | confidence | as-written member | corrected member |
|---|---|---|---|---|---|---|
| src/MaaCore/Task/Miscellaneous/BattleProcessTask.cpp:342 | `next_index > actions.size()` rejects only indices past the end, so `actions.at(next_index)` is reached with `next_index == size` | a script whose last action is BulletTime | `next_index >= actions.size()`, reporting that bullet time has no next step | not executed | `Executor.BulletTimeAsLastActionThrows` | `Executor.EnterBulletTime` |
| src/MaaCore/Task/Miscellaneous/BattleProcessTask.cpp:217-233 | the label table has no GetDrops entry, so `ActionNames.at(action.type)` throws for a GetDrops action | an SSS script with a GetDrops action | every action kind has a label | not executed | `BattleTypes.GetDropsHasNoLabelAsWritten` | `BattleTypes.ActionLabel` |

=== FILE: executor.dfy ===
/** The script executor: one battle attempt walks the action list in order,
    waits for each action's conditions, resolves its operator name and
    dispatches it, with a bullet-time flag that switches Retreat and
    UseSkill to an abbreviated protocol. */
module Executor {
  import opened BattleTypes
  import opened Groups
  import opened Waits

  /** The executor's own state on top of the tracker. */
  datatype ExecState = ExecState(tracker: Tracker, placement: Placement, inBulletTime: bool)

  /** The tap bullet time makes in advance for the action that follows it. */
  datatype BulletClick =
    | OnDeployment(name: string)
    | OnBattlefieldByName(name: string)
    | OnBattlefieldAt(loc: Location)

  /** The device call an action turns into. */
  datatype Command =
    | DeployOper(name: string, loc: Location, dir: Direction)
    | RetreatByName(name: string) | RetreatAt(loc: Location) | ClickRetreat
    | UseSkillByName(name: string) | UseSkillAt(loc: Location) | ClickSkill
    | SpeedUp
    | Bullet(click: BulletClick)
    | PanCamera
    | WaitUntilEnd
    | Derived(index: nat)
    | NoCommand

  /** The bullet-time tap for a following action of kind `next`, if that kind may follow bullet time. */
  function BulletClickFor(next: ActionType, loc: Location, name: string): Option<BulletClick> {
    match next
    case Deploy => Some(OnDeployment(name))
    case UseSkill => Some(if loc.Unset? then OnBattlefieldByName(name) else OnBattlefieldAt(loc))
    case Retreat => Some(if loc.Unset? then OnBattlefieldByName(name) else OnBattlefieldAt(loc))
    case _ => None
  }

  /** `enter_bullet_time_for_next_action` as the source writes it: the
      bound test rejects only `next > |actions|`, so `next == |actions|`
      reaches the checked element access, which throws. */
  datatype BulletEntry = Entered(click: Option<BulletClick>, ok: bool) | OutOfRange

  function EnterBulletTimeAsWritten(actions: seq<Action>, next: nat, loc: Location, name: string, clickOk: bool): (r: BulletEntry)
    ensures r.OutOfRange? <==> next == |actions|
    ensures next > |actions| ==> r == Entered(None, false)
    ensures r.Entered? && r.click.Some? ==> next < |actions| && IsOperatorAction(actions[next].kind)
    ensures r.Entered? && r.ok ==> r.click.Some? && clickOk
  {
    if next > |actions| then Entered(None, false)
    else if next == |actions| then OutOfRange
    else match BulletClickFor(actions[next].kind, loc, name)
      case None => Entered(None, false)
      case Some(c) => Entered(Some(c), clickOk)
  }

  /** A BulletTime action that is the last of the script makes the source's bound test pass and the access throw. */
  lemma BulletTimeAsLastActionThrows(actions: seq<Action>, loc: Location, name: string, clickOk: bool)
    requires |actions| > 0 && actions[|actions| - 1].kind.BulletTime?
    ensures EnterBulletTimeAsWritten(actions, |actions|, loc, name, clickOk) == OutOfRange
  {
  }

  /** Bullet-time entry with the bound test the error message asks for
      (`next >= |actions|` means there is no next step). It taps in advance
      only for a following Deploy, UseSkill or Retreat, and succeeds only
      if that tap does. */
  function EnterBulletTime(actions: seq<Action>, next: nat, loc: Location, name: string, clickOk: bool): (r: (Option<BulletClick>, bool))
    ensures r.0.Some? <==> next < |actions| && IsOperatorAction(actions[next].kind)
    ensures r.1 <==> r.0.Some? && clickOk
    ensures next < |actions| && actions[next].kind.Deploy? ==> r.0 == Some(OnDeployment(name))
    ensures next < |actions| && (actions[next].kind.UseSkill? || actions[next].kind.Retreat?) ==>
              r.0 == Some(if loc.Unset? then OnBattlefieldByName(name) else OnBattlefieldAt(loc))
  {
    if next >= |actions| then (None, false)
    else match BulletClickFor(actions[next].kind, loc, name)
      case None => (None, false)
      case Some(c) => (Some(c), clickOk)
  }

  /** Wherever the source's version does not throw, the two agree. */
  lemma EnterBulletTimeAgrees(actions: seq<Action>, next: nat, loc: Location, name: string, clickOk: bool)
    requires next != |actions|
    ensures EnterBulletTimeAsWritten(actions, next, loc, name, clickOk)
              == Entered(EnterBulletTime(actions, next, loc, name, clickOk).0, EnterBulletTime(actions, next, loc, name, clickOk).1)
  {
  }

  /** The device call for action `i` (already waited for) with resolved
      operator `name`, and the action's result given the call's result `ok`. */
  function Dispatch(actions: seq<Action>, i: nat, name: string, inBulletTime: bool, ok: bool): (r: (Command, bool))
    requires i < |actions|
    ensures var k := actions[i].kind;
            (r.0.ClickRetreat? || r.0.ClickSkill?) <==> inBulletTime && (k.Retreat? || k.UseSkill?)
    ensures var a := actions[i];
            a.kind.Deploy? ==> r.0 == DeployOper(name, a.location, a.direction)
    ensures var a := actions[i];
            a.kind.Retreat? ==>
              r.0 == if inBulletTime then ClickRetreat else if a.location.Unset? then RetreatByName(name) else RetreatAt(a.location)
    ensures var a := actions[i];
            a.kind.UseSkill? ==>
              r.0 == if inBulletTime then ClickSkill else if a.location.Unset? then UseSkillByName(name) else UseSkillAt(a.location)
    ensures actions[i].kind.SwitchSpeed? ==> r.0 == SpeedUp
    ensures actions[i].kind.MoveCamera? ==> r.0 == PanCamera
    ensures actions[i].kind.SkillDaemon? ==> r.0 == WaitUntilEnd
    ensures actions[i].kind.SkillUsage? || actions[i].kind.Output? ==> r == (NoCommand, true)
    ensures r.0.Derived? <==> !IsBaseAction(actions[i].kind)
    ensures r.0.Derived? ==> r.0.index == i
    ensures !actions[i].kind.BulletTime? && !actions[i].kind.SkillUsage? && !actions[i].kind.Output? ==> r.1 == ok
    ensures var a := actions[i];
            a.kind.BulletTime? ==>
              var (c, ret) := EnterBulletTime(actions, i + 1, a.location, name, ok);
              r.1 == ret && r.0 == if c.Some? then Bullet(c.value) else NoCommand
    ensures r.0.Bullet? ==> actions[i].kind.BulletTime? && i + 1 < |actions| && IsOperatorAction(actions[i + 1].kind)
    ensures actions[i].kind.BulletTime? && r.1 ==> i + 1 < |actions| && IsOperatorAction(actions[i + 1].kind)
  {
    var a := actions[i];
    match a.kind
    case Deploy => (DeployOper(name, a.location, a.direction), ok)
    case Retreat =>
      (if inBulletTime then ClickRetreat else if a.location.Unset? then RetreatByName(name) else RetreatAt(a.location), ok)
    case UseSkill =>
      (if inBulletTime then ClickSkill else if a.location.Unset? then UseSkillByName(name) else UseSkillAt(a.location), ok)
    case SwitchSpeed => (SpeedUp, ok)
    case BulletTime =>
      var (c, ret) := EnterBulletTime(actions, i + 1, a.location, name, ok);
      (if c.Some? then Bullet(c.value) else NoCommand, ret)
    case SkillUsage => (NoCommand, true)
    case Output => (NoCommand, true)
    case MoveCamera => (PanCamera, ok)
    case SkillDaemon => (WaitUntilEnd, ok)
    case _ => (Derived(i), ok)
  }

  /** The bullet-time flag after an action of kind `k` that succeeded or not:
      only a successful BulletTime sets it, only a successful Deploy,
      Retreat or UseSkill clears it. */
  function FlagAfter(flag: bool, k: ActionType, success: bool): (r: bool)
    ensures r <==> (success && k.BulletTime?) || (flag && !(success && IsOperatorAction(k)))
  {
    if success && k.BulletTime? then true
    else if success && IsOperatorAction(k) then false
    else flag
  }

  /** What the environment answers during one action: cancellation before
      it, the captures its waits see, the panel after its pre-delay, the
      result of its device call and the in-battle flag after it. */
  datatype StepOracle = StepOracle(exitBefore: bool, frames: seq<Frame>, afterDelay: Roster, commandOk: bool, inBattleAfter: bool)

  /** One action: its waits either let it through (`dispatched`, with the
      resolved operator `name`) or saw the battle end. */
  datatype Step = Done(state: ExecState, dispatched: bool, name: string, command: Command, ret: bool) | StepStuck

  /** What one step of action `a` from state `s` guarantees: the placement
      only grows and keeps `a`'s resolution, the bullet-time flag moves as
      `FlagAfter` says, the abbreviated taps are used exactly for a
      dispatched Retreat or UseSkill in bullet time, and an action whose
      waits saw the battle end made no call and failed. */
  predicate StepLaw(a: Action, s: ExecState, r: Step) {
    r.Done? ==>
      && Extends(s.placement, r.state.placement)
      && r.state.inBulletTime == FlagAfter(s.inBulletTime, a.kind, r.dispatched && r.ret)
      && (r.dispatched ==> a.name in r.state.placement && r.state.placement[a.name] == r.name)
      && ((r.command.ClickRetreat? || r.command.ClickSkill?) <==> r.dispatched && s.inBulletTime && (a.kind.Retreat? || a.kind.UseSkill?))
      && (!r.dispatched ==> !r.ret && r.command.NoCommand? && !r.state.tracker.inBattle)
  }

  /** `do_action`: waits, the pre-delay's panel refresh, name resolution,
      the device call and the bullet-time flag. */
  function DoAction(actions: seq<Action>, i: nat, s: ExecState, o: StepOracle): (r: Step)
    requires i < |actions|
    ensures StepLaw(actions[i], s, r)
    ensures r.StepStuck? <==> WaitCondition(actions[i], s.inBulletTime, s.placement, s.tracker, o.frames).Stuck?
    ensures r.Done? && !r.dispatched ==> r.state.inBulletTime == s.inBulletTime && r.state.tracker.usage == s.tracker.usage
    ensures r.Done? && r.dispatched ==>
              (r.command, r.ret) == Dispatch(actions, i, r.name, s.inBulletTime, o.commandOk)
              && r.state.tracker.inBattle == o.inBattleAfter
    ensures r.Done? && r.dispatched && actions[i].kind.SkillUsage? ==>
              r.state.tracker.usage == s.tracker.usage[actions[i].name := actions[i].modifyUsage]
    ensures r.Done? && !actions[i].kind.SkillUsage? ==> r.state.tracker.usage == s.tracker.usage
    ensures var w := WaitCondition(actions[i], s.inBulletTime, s.placement, s.tracker, o.frames);
            r.Done? ==> (r.dispatched <==> w.Proceed?)
    ensures var w := WaitCondition(actions[i], s.inBulletTime, s.placement, s.tracker, o.frames);
            w.Abort? ==> r.Done? && r.state.tracker == w.tracker && r.state.placement == w.placement
    ensures var w := WaitCondition(actions[i], s.inBulletTime, s.placement, s.tracker, o.frames);
            w.Proceed? ==>
              && r.Done?
              && (r.state.placement, r.name) == GetNameFromGroup(w.placement, actions[i].name)
              && r.state.tracker.roster == (if actions[i].preDelay > 0 then o.afterDelay else w.tracker.roster)
              && r.state.tracker.kills == w.tracker.kills && r.state.tracker.cost == w.tracker.cost
  {
    var a := actions[i];
    match WaitCondition(a, s.inBulletTime, s.placement, s.tracker, o.frames)
    case Stuck => StepStuck
    case Abort(t, p) => Done(ExecState(t, p, s.inBulletTime), false, "", NoCommand, false)
    case Proceed(t, p, _) =>
      var t1 := if a.preDelay > 0 then t.(roster := o.afterDelay) else t;
      var (p2, name) := GetNameFromGroup(p, a.name);
      var (cmd, ret) := Dispatch(actions, i, name, s.inBulletTime, o.commandOk);
      var usage := if a.kind.SkillUsage? then t1.usage[a.name := a.modifyUsage] else t1.usage;
      var t2 := t1.(usage := usage, inBattle := o.inBattleAfter);
      Done(ExecState(t2, p2, FlagAfter(s.inBulletTime, a.kind, ret)), true, name, cmd, ret)
  }

  /** One executed action as the run log records it: the action, the label
      it was announced under, the bullet-time flag before and after it, and
      whether its waits let it through to a device call on operator `name`. */
  datatype Executed = Executed(
    action: Action,
    announced: string,
    bulletBefore: bool,
    bulletAfter: bool,
    dispatched: bool,
    name: string,
    command: Command,
    ret: bool)

  /** What every log entry satisfies on its own: it was announced under its
      kind's label; the flag moved as `FlagAfter` says; the abbreviated taps
      were used exactly for a dispatched Retreat or UseSkill in bullet time;
      an action its waits stopped made no call and failed. */
  predicate Coherent(e: Executed) {
    var k := e.action.kind;
    && e.announced == ActionLabel(k)
    && e.bulletAfter == FlagAfter(e.bulletBefore, k, e.dispatched && e.ret)
    && ((e.command.ClickRetreat? || e.command.ClickSkill?) <==> e.dispatched && e.bulletBefore && (k.Retreat? || k.UseSkill?))
    && (!e.dispatched ==> !e.ret && e.command.NoCommand?)
  }

  /** The log entries are each coherent and chained through the bullet-time
      flag: the first starts from `before`, each starts where the previous
      one ended, and the last ends at `after`. */
  predicate Chained(log: seq<Executed>, before: bool, after: bool) {
    && (forall e :: e in log ==> Coherent(e))
    && (|log| > 0 ==> log[0].bulletBefore == before)
    && (forall j :: 0 <= j < |log| - 1 ==> log[j + 1].bulletBefore == log[j].bulletAfter)
    && after == if |log| == 0 then before else log[|log| - 1].bulletAfter
  }

  lemma ChainedCons(e: Executed, rest: seq<Executed>, after: bool)
    requires Coherent(e) && Chained(rest, e.bulletAfter, after)
    ensures Chained([e] + rest, e.bulletBefore, after)
  {
    var log := [e] + rest;
    assert forall j :: 1 <= j < |log| ==> log[j] == rest[j - 1];
  }

  /** Every dispatched entry's script name resolves to the operator it was dispatched on. */
  predicate Resolved(log: seq<Executed>, placement: Placement) {
    forall e :: e in log && e.dispatched ==> e.action.name in placement && placement[e.action.name] == e.name
  }

  lemma ResolvedCons(e: Executed, rest: seq<Executed>, placement: Placement)
    requires Resolved(rest, placement)
    requires e.dispatched ==> e.action.name in placement && placement[e.action.name] == e.name
    ensures Resolved([e] + rest, placement)
  {
  }

  /** The log records the actions from `i` on, in order. */
  predicate Follows(log: seq<Executed>, actions: seq<Action>, i: nat) {
    && i + |log| <= |actions|
    && forall j :: 0 <= j < |log| ==> log[j].action == actions[i + j]
  }

  lemma FollowsCons(e: Executed, rest: seq<Executed>, actions: seq<Action>, i: nat)
    requires i < |actions| && e.action == actions[i] && Follows(rest, actions, i + 1)
    ensures Follows([e] + rest, actions, i)
  {
    var log := [e] + rest;
    forall j | 0 <= j < |log|
      ensures log[j].action == actions[i + j]
    {
      if j > 0 {
        assert log[j] == rest[j - 1];
      }
    }
  }

  lemma ExtendsTransitive(p: Placement, q: Placement, r: Placement)
    requires Extends(p, q) && Extends(q, r)
    ensures Extends(p, r)
  {
  }

  /** How the action loop ended: every action ran, cancellation or the
      in-battle flag stopped it, or the oracle trace ran out. */
  datatype RunEnd = Completed | Halted | TraceEnded

  datatype RunResult = RunResult(state: ExecState, log: seq<Executed>, end: RunEnd)

  /** The step the loop takes for action `k` from state `st`. */
  type Stepper = (nat, ExecState) -> Step

  /** Why the loop ended when it stopped before action `k` in state `st`:
      it halts exactly when the battle had ended or a cancellation was
      requested before that action, and it runs out of trace only in battle,
      when there is no step for that action or the action's waits ran out
      of captures. */
  predicate StopsAt(end: RunEnd, actions: seq<Action>, steps: seq<StepOracle>, k: nat, st: ExecState, next: Stepper) {
    && (end.Halted? <==> k < |actions| && (!st.tracker.inBattle || (k < |steps| && steps[k].exitBefore)))
    && (end.TraceEnded? ==>
          k < |actions| && st.tracker.inBattle && (k >= |steps| || (!steps[k].exitBefore && next(k, st).StepStuck?)))
  }

  /** The log entry of a step of action `a` taken from state `s`. */
  function EntryOf(a: Action, s: ExecState, step: Step): Executed
    requires step.Done?
  {
    Executed(a, ActionLabel(a.kind), s.inBulletTime, step.state.inBulletTime, step.dispatched, step.name, step.command, step.ret)
  }

  /** The log from action `i` on was produced by the steps themselves, state
      by state from `s` to `last`: before each logged action no cancellation
      was requested and the battle was on, the action's step went through,
      its entry is what that step returned, and the next action starts from
      the state that step left. */
  predicate Stepped(log: seq<Executed>, actions: seq<Action>, i: nat, s: ExecState, steps: seq<StepOracle>, next: Stepper, last: ExecState)
    decreases |log|
  {
    if |log| == 0 then last == s
    else
      && i < |actions| && i < |steps|
      && !steps[i].exitBefore && s.tracker.inBattle
      && next(i, s).Done?
      && log[0] == EntryOf(actions[i], s, next(i, s))
      && Stepped(log[1..], actions, i + 1, next(i, s).state, steps, next, last)
  }

  /** No cancellation was requested before any of the actions `i` to `j - 1`. */
  predicate NoCancelBefore(steps: seq<StepOracle>, i: nat, j: nat) {
    forall k :: i <= k < j && k < |steps| ==> !steps[k].exitBefore
  }

  /** What a run of the action loop from action `i` in state `s` promises:
      its log records the actions from `i` on, in order, each entry
      coherent, chained through the bullet-time flag and resolved in the
      final placement, which only grew; it completes exactly when every
      action ran, and `StopsAt` says why it stopped otherwise. */
  predicate Runs(r: RunResult, actions: seq<Action>, i: nat, s: ExecState, steps: seq<StepOracle>, next: Stepper) {
    && (|r.log| > 0 ==> i + |r.log| <= |steps|)
    && Follows(r.log, actions, i)
    && (r.end.Completed? <==> i + |r.log| == |actions|)
    && StopsAt(r.end, actions, steps, i + |r.log|, r.state, next)
    && Extends(s.placement, r.state.placement)
    && Chained(r.log, s.inBulletTime, r.state.inBulletTime)
    && Resolved(r.log, r.state.placement)
    && NoCancelBefore(steps, i, i + |r.log|)
    && Stepped(r.log, actions, i, s, steps, next, r.state)
  }

  /** A step that keeps the step law, followed by a run from the next
      action, is a run from this action. */
  lemma RunsCons(actions: seq<Action>, i: nat, s: ExecState, steps: seq<StepOracle>, next: Stepper, rest: RunResult)
    requires i < |actions| && i < |steps| && !steps[i].exitBefore && s.tracker.inBattle
    requires next(i, s).Done? && StepLaw(actions[i], s, next(i, s))
    requires Runs(rest, actions, i + 1, next(i, s).state, steps, next)
    ensures Runs(RunResult(rest.state, [EntryOf(actions[i], s, next(i, s))] + rest.log, rest.end), actions, i, s, steps, next)
  {
    var step := next(i, s);
    var e := EntryOf(actions[i], s, step);
    var log := [e] + rest.log;
    SteppedCons(actions, i, s, steps, next, rest.log, rest.state);
    ExtendsTransitive(s.placement, step.state.placement, rest.state.placement);
    ChainedCons(e, rest.log, rest.state.inBulletTime);
    ResolvedCons(e, rest.log, rest.state.placement);
    FollowsCons(e, rest.log, actions, i);
    assert i + |log| == (i + 1) + |rest.log|;
  }

  /** A step that went through, followed by a log stepped from the state it
      left, is stepped from this action. */
  lemma SteppedCons(actions: seq<Action>, i: nat, s: ExecState, steps: seq<StepOracle>, next: Stepper,
                    rest: seq<Executed>, last: ExecState)
    requires i < |actions| && i < |steps| && !steps[i].exitBefore && s.tracker.inBattle && next(i, s).Done?
    requires Stepped(rest, actions, i + 1, next(i, s).state, steps, next, last)
    requires NoCancelBefore(steps, i + 1, i + 1 + |rest|)
    ensures Stepped([EntryOf(actions[i], s, next(i, s))] + rest, actions, i, s, steps, next, last)
    ensures NoCancelBefore(steps, i, i + |[EntryOf(actions[i], s, next(i, s))] + rest|)
  {
    var log := [EntryOf(actions[i], s, next(i, s))] + rest;
    assert log[1..] == rest;
  }

  /** The action loop of an attempt from action `i` on, for any step that
      keeps `StepLaw`. */
  function RunFrom(actions: seq<Action>, i: nat, s: ExecState, steps: seq<StepOracle>, next: Stepper): (r: RunResult)
    requires i <= |actions|
    requires forall k: nat, st: ExecState :: i <= k < |actions| && k < |steps| ==> StepLaw(actions[k], st, next(k, st))
    ensures Runs(r, actions, i, s, steps, next)
    decreases |actions| - i
  {
    if i == |actions| then RunResult(s, [], Completed)
    else if !s.tracker.inBattle then RunResult(s, [], Halted)
    else if i >= |steps| then RunResult(s, [], TraceEnded)
    else if steps[i].exitBefore then RunResult(s, [], Halted)
    else
      var step := next(i, s);
      assert StepLaw(actions[i], s, step);
      match step
      case StepStuck => RunResult(s, [], TraceEnded)
      case Done(s', d, name, c, ret) =>
        var rest := RunFrom(actions, i + 1, s', steps, next);
        RunsCons(actions, i, s, steps, next, rest);
        RunResult(rest.state, [EntryOf(actions[i], s, step)] + rest.log, rest.end)
  }

  /** The step `_run` takes for each action: `DoAction` with that action's
      recorded answers. */
  function ScriptSteps(actions: seq<Action>, steps: seq<StepOracle>): Stepper {
    (k: nat, st: ExecState) => if k < |actions| && k < |steps| then DoAction(actions, k, st, steps[k]) else StepStuck
  }

  /** The loop of `_run` over the whole script, each action taken by `DoAction`. */
  function Run(actions: seq<Action>, s: ExecState, steps: seq<StepOracle>): (r: RunResult)
    ensures r.end.Completed? <==> |r.log| == |actions|
    ensures |r.log| <= |actions| && (|r.log| > 0 ==> |r.log| <= |steps|)
    ensures Follows(r.log, actions, 0)
    ensures r.end.Halted? <==>
              |r.log| < |actions| && (!r.state.tracker.inBattle || (|r.log| < |steps| && steps[|r.log|].exitBefore))
    ensures r.end.TraceEnded? ==>
              |r.log| < |actions| && r.state.tracker.inBattle
              && (|r.log| >= |steps|
                  || (!steps[|r.log|].exitBefore
                      && WaitCondition(actions[|r.log|], r.state.inBulletTime, r.state.placement, r.state.tracker, steps[|r.log|].frames).Stuck?))
    ensures Extends(s.placement, r.state.placement)
    ensures Chained(r.log, s.inBulletTime, r.state.inBulletTime)
    ensures Resolved(r.log, r.state.placement)
    ensures forall j :: 0 <= j < |r.log| ==> j < |steps| && !steps[j].exitBefore
    ensures Stepped(r.log, actions, 0, s, steps, ScriptSteps(actions, steps), r.state)
  {
    RunFrom(actions, 0, s, steps, ScriptSteps(actions, steps))
  }

  /** A cancellation requested before the first action stops the loop
      before it: nothing runs and the run halts. */
  lemma CancelBeforeFirstHalts(actions: seq<Action>, s: ExecState, steps: seq<StepOracle>)
    requires |actions| > 0 && |steps| > 0 && steps[0].exitBefore
    ensures Run(actions, s, steps).log == [] && Run(actions, s, steps).end == Halted
  {
  }

  /** The loop tests the in-battle flag whatever cancellation would answer:
      a run that starts out of battle halts before the first action, even
      with no step recorded for it. */
  lemma OutOfBattleHalts(actions: seq<Action>, s: ExecState, steps: seq<StepOracle>)
    requires |actions| > 0 && !s.tracker.inBattle
    ensures Run(actions, s, steps).log == [] && Run(actions, s, steps).end == Halted
  {
  }

  /** The first log entry is what `DoAction` does with the first action
      from the starting state, and the rest of the log runs on from the
      state it leaves. */
  lemma RunFirstEntry(actions: seq<Action>, s: ExecState, steps: seq<StepOracle>)
    requires |Run(actions, s, steps).log| > 0
    ensures var step := DoAction(actions, 0, s, steps[0]);
            && step.Done?
            && Run(actions, s, steps).log[0] == EntryOf(actions[0], s, step)
            && Stepped(Run(actions, s, steps).log[1..], actions, 1, step.state, steps, ScriptSteps(actions, steps),
                       Run(actions, s, steps).state)
  {
    var r := Run(actions, s, steps);
    assert Stepped(r.log, actions, 0, s, steps, ScriptSteps(actions, steps), r.state);
    assert ScriptSteps(actions, steps)(0, s) == DoAction(actions, 0, s, steps[0]);
  }

  /** A BulletTime that succeeded makes the next action, if it is a Retreat
      or UseSkill its waits let through, use the abbreviated tap; a Deploy,
      Retreat or UseSkill that succeeded makes it use the normal path. */
  lemma BulletTimeForwarding(actions: seq<Action>, s: ExecState, steps: seq<StepOracle>, j: nat)
    requires j + 1 < |Run(actions, s, steps).log|
    requires Run(actions, s, steps).log[j + 1].dispatched
    requires actions[j + 1].kind.Retreat? || actions[j + 1].kind.UseSkill?
    ensures var log := Run(actions, s, steps).log;
            log[j].dispatched && log[j].ret && actions[j].kind.BulletTime? ==>
              log[j + 1].command.ClickRetreat? || log[j + 1].command.ClickSkill?
    ensures var log := Run(actions, s, steps).log;
            log[j].dispatched && log[j].ret && IsOperatorAction(actions[j].kind) ==>
              !(log[j + 1].command.ClickRetreat? || log[j + 1].command.ClickSkill?)
  {
    var log := Run(actions, s, steps).log;
    assert Coherent(log[j]) && Coherent(log[j + 1]);
  }

  /** The attempt after its prologue: clearing, stage geometry, grouping. */
  datatype Attempt = NoStageInfo | Started(state: ExecState, grouped: bool)

  /** The prologue of an attempt. Clearing empties the placement and the
      bullet-time flag; a failed stage-geometry load ends the attempt; the
      grouping's own result is then ignored, so an allocator failure leaves
      the placement empty and every name resolves to itself later. */
  function StartAttempt(tilesOk: bool, t: Tracker, groups: GroupTable, actions: seq<Action>,
                        alloc: Option<Placement>, order: seq<string>): (r: Attempt)
    requires alloc.Some? ==> forall i :: 0 <= i < |order| ==> order[i] in Place(alloc.value, t.roster, actions)
    requires alloc.Some? ==> forall k :: k in Place(alloc.value, t.roster, actions) ==> k in order
    ensures r.NoStageInfo? <==> !tilesOk
    ensures r.Started? ==> !r.state.inBulletTime && r.state.tracker.roster == t.roster
    ensures r.Started? ==> (r.grouped <==> alloc.Some?)
    ensures r.Started? && alloc.None? ==> r.state.placement == map[] && r.state.tracker.usage == t.usage
    ensures r.Started? && alloc.Some? ==>
              forall i :: 0 <= i < |actions| && actions[i].name != "" ==> actions[i].name in r.state.placement
    ensures r.Started? ==>
              forall k :: k in r.state.placement ==>
                alloc.Some? && (k in alloc.value || k in RosterNames(t.roster) || NamedByAction(actions, k))
  {
    if !tilesOk then NoStageInfo
    else
      var g := ToGroup(groups, t.roster, actions, alloc, map[], t.usage, order);
      Started(ExecState(t.(usage := g.usage), g.placement, false), g.ok)
  }
}

=== FILE: groups.dfy ===
/** Placeholder resolution of the script executor: which concrete operator
    stands for each script-level name during one battle attempt, and the
    skill-usage policy each resolved operator starts with. */
module Groups {
  import opened BattleTypes

  /** A declared member of a script group with the skill usage the script asks for. */
  datatype Member = Member(name: string, usage: SkillUsagePolicy)

  /** Group name to its declared members, in declaration order. */
  type GroupTable = map<string, seq<Member>>

  /** Placeholder (group name or plain name) to concrete operator name. */
  type Placement = map<string, string>

  type UsageTable = map<string, SkillUsagePolicy>

  /** The candidate set: names of every operator on the deployment panel. */
  function RosterNames(roster: Roster): set<string> {
    set i | 0 <= i < |roster| :: roster[i].name
  }

  /** `k` is the name of one of the script's actions. */
  ghost predicate NamedByAction(actions: seq<Action>, k: string) {
    exists i :: 0 <= i < |actions| && actions[i].name == k
  }

  /** Adds `name -> name` for every non-empty action name that is not yet a key. */
  function AddActionNames(m: Placement, actions: seq<Action>): (r: Placement)
    ensures forall k :: k in m ==> k in r && r[k] == m[k]
    ensures forall i :: 0 <= i < |actions| && actions[i].name != "" ==> actions[i].name in r
    ensures forall k :: k in r && k !in m ==> r[k] == k && k != "" && NamedByAction(actions, k)
    decreases |actions|
  {
    if |actions| == 0 then m
    else
      var a := actions[0];
      var m' := if a.name == "" || a.name in m then m else m[a.name := a.name];
      var r := AddActionNames(m', actions[1..]);
      assert forall k :: k in r && k !in m' ==> NamedByAction(actions, k) by {
        forall k | k in r && k !in m' && NamedByAction(actions[1..], k)
          ensures NamedByAction(actions, k)
        {
          var i :| 0 <= i < |actions[1..]| && actions[1..][i].name == k;
          assert actions[i + 1].name == k;
        }
      }
      assert forall i :: 1 <= i < |actions| ==> actions[i] == actions[1..][i - 1];
      r
  }

  /** The placement built from the allocator's answer `alloc`: allocated
      entries first, then every unallocated panel name mapped to itself
      (keys already present win the merge), then every action name that is
      still missing mapped to itself. */
  function Place(alloc: Placement, roster: Roster, actions: seq<Action>): (r: Placement)
    ensures forall k :: k in alloc ==> k in r && r[k] == alloc[k]
    ensures forall n :: n in RosterNames(roster) && n !in alloc.Values ==> n in r
    ensures forall n :: n in RosterNames(roster) && n !in alloc.Values && n !in alloc ==> r[n] == n
    ensures forall i :: 0 <= i < |actions| && actions[i].name != "" ==> actions[i].name in r
    ensures forall k :: k in r && k !in alloc ==> r[k] == k
    ensures forall k :: k in r ==> k in alloc || k in RosterNames(roster) || NamedByAction(actions, k)
  {
    var names := RosterNames(roster);
    var ungrouped := map n | n in names && n !in alloc.Values :: n;
    AddActionNames(ungrouped + alloc, actions)
  }

  /** The skill usage of the first declared member of `group` called `name`. */
  function FirstUsage(group: seq<Member>, name: string): (r: Option<SkillUsagePolicy>)
    ensures r.None? <==> forall i :: 0 <= i < |group| ==> group[i].name != name
    ensures r.Some? ==> exists i :: 0 <= i < |group| && group[i].name == name && group[i].usage == r.value
                          && forall j :: 0 <= j < i ==> group[j].name != name
  {
    if |group| == 0 then None
    else if group[0].name == name then Some(group[0].usage)
    else
      var r := FirstUsage(group[1..], name);
      assert forall i :: 1 <= i < |group| ==> group[i] == group[1..][i - 1];
      r
  }

  /** Indexing the group table with a missing key reads an empty group. */
  function GroupOf(groups: GroupTable, k: string): seq<Member> {
    if k in groups then groups[k] else []
  }

  /** The usage that placeholder `k` declares for its resolved operator, if
      that operator is a declared member of the group named `k`. */
  function DeclaredUsage(groups: GroupTable, placement: Placement, k: string): Option<SkillUsagePolicy>
    requires k in placement
  {
    FirstUsage(GroupOf(groups, k), placement[k])
  }

  /** Seeds skill usage by visiting placeholders in `order` (the hash map's
      iteration order). An entry is only ever added, never replaced. */
  function SeedSkillUsage(usage: UsageTable, placement: Placement, groups: GroupTable, order: seq<string>): (r: UsageTable)
    requires forall i :: 0 <= i < |order| ==> order[i] in placement
    ensures forall o :: o in usage ==> o in r && r[o] == usage[o]
    ensures forall i :: 0 <= i < |order| && DeclaredUsage(groups, placement, order[i]).Some? ==> placement[order[i]] in r
    decreases |order|
  {
    if |order| == 0 then usage
    else
      var r := SeedSkillUsage(SeedOne(usage, placement, groups, order[0]), placement, groups, order[1..]);
      assert forall i :: 1 <= i < |order| ==> order[i] == order[1..][i - 1];
      r
  }

  /** One step of the seeding loop: `emplace` of the declared usage. */
  function SeedOne(usage: UsageTable, placement: Placement, groups: GroupTable, k: string): UsageTable
    requires k in placement
  {
    match DeclaredUsage(groups, placement, k)
    case Some(p) => if placement[k] in usage then usage else usage[placement[k] := p]
    case None => usage
  }

  /** Placeholder `order[i]` is the first in `order` that declares a usage for operator `o`. */
  ghost predicate FirstDeclarer(groups: GroupTable, placement: Placement, order: seq<string>, o: string, i: int)
    requires forall j :: 0 <= j < |order| ==> order[j] in placement
  {
    && 0 <= i < |order| && placement[order[i]] == o
    && DeclaredUsage(groups, placement, order[i]).Some?
    && forall j :: 0 <= j < i && placement[order[j]] == o ==> DeclaredUsage(groups, placement, order[j]).None?
  }

  /** Every entry the seeding adds comes from the first placeholder in
      iteration order that declares the operator as a member of its group. */
  lemma {:induction false} SeedFirstDeclarationWins(usage: UsageTable, placement: Placement, groups: GroupTable, order: seq<string>, o: string)
    requires forall i :: 0 <= i < |order| ==> order[i] in placement
    requires o !in usage && o in SeedSkillUsage(usage, placement, groups, order)
    ensures exists i :: FirstDeclarer(groups, placement, order, o, i)
                && DeclaredUsage(groups, placement, order[i]) == Some(SeedSkillUsage(usage, placement, groups, order)[o])
    decreases |order|
  {
    var u := SeedOne(usage, placement, groups, order[0]);
    var tail := order[1..];
    var whole := SeedSkillUsage(usage, placement, groups, order);
    assert whole == SeedSkillUsage(u, placement, groups, tail);
    if o in u {
      assert placement[order[0]] == o && u[o] == whole[o];
      assert DeclaredUsage(groups, placement, order[0]) == Some(whole[o]);
      assert FirstDeclarer(groups, placement, order, o, 0);
    } else {
      SeedFirstDeclarationWins(u, placement, groups, tail, o);
      var i :| FirstDeclarer(groups, placement, tail, o, i)
               && DeclaredUsage(groups, placement, tail[i]) == Some(whole[o]);
      assert order[i + 1] == tail[i];
      forall j | 0 <= j < i + 1 && placement[order[j]] == o
        ensures DeclaredUsage(groups, placement, order[j]).None?
      {
        if j > 0 {
          assert order[j] == tail[j - 1];
        }
      }
      assert FirstDeclarer(groups, placement, order, o, i + 1);
      assert DeclaredUsage(groups, placement, order[i + 1]) == Some(whole[o]);
    }
  }

  /** The group table after every placeholder has been looked up in it:
      a lookup of a missing key inserts an empty group. */
  function TouchGroups(groups: GroupTable, keys: set<string>): (r: GroupTable)
    ensures r.Keys == groups.Keys + keys
    ensures forall k :: k in groups ==> r[k] == groups[k]
    ensures forall k :: k in r && k !in groups ==> r[k] == []
  {
    map k | k in groups.Keys + keys :: GroupOf(groups, k)
  }

  /** The outcome of grouping: whether the allocator answered, and the
      placement, skill-usage table and group table afterwards. */
  datatype Grouping = Grouping(ok: bool, placement: Placement, usage: UsageTable, groups: GroupTable)

  /** Grouping at the start of an attempt. `alloc` is the allocator's answer
      for the group members and panel names; `order` is the iteration order
      of the finished placement. */
  function ToGroup(groups: GroupTable, roster: Roster, actions: seq<Action>, alloc: Option<Placement>,
                   placement: Placement, usage: UsageTable, order: seq<string>): (r: Grouping)
    requires alloc.Some? ==> forall i :: 0 <= i < |order| ==> order[i] in Place(alloc.value, roster, actions)
    requires alloc.Some? ==> forall k :: k in Place(alloc.value, roster, actions) ==> k in order
    ensures alloc.None? <==> !r.ok
    ensures !r.ok ==> r.placement == placement && r.usage == usage && r.groups == groups
    ensures r.ok ==> r.placement == Place(alloc.value, roster, actions)
    ensures r.ok ==> r.usage == SeedSkillUsage(usage, r.placement, groups, order)
    ensures r.ok ==> r.groups == TouchGroups(groups, r.placement.Keys)
  {
    match alloc
    case None => Grouping(false, placement, usage, groups)
    case Some(chosen) =>
      var p := Place(chosen, roster, actions);
      Grouping(true, p, SeedSkillUsage(usage, p, groups, order), TouchGroups(groups, p.Keys))
  }

  /** Resolves a script name: an existing entry is returned as it is;
      otherwise the name is added as its own placeholder. */
  function GetNameFromGroup(m: Placement, name: string): (r: (Placement, string))
    ensures name in r.0 && r.1 == r.0[name]
    ensures r.0.Keys == m.Keys + {name}
    ensures forall k :: k in m ==> r.0[k] == m[k]
    ensures name !in m ==> r.1 == name
  {
    if name in m then (m, m[name]) else (m[name := name], name)
  }

  /** `q` keeps every entry of `p`. */
  predicate Extends(p: Placement, q: Placement) {
    forall k :: k in p ==> k in q && q[k] == p[k]
  }

  /** A second lookup of the same name changes nothing and gives the same operator. */
  lemma ResolveIsStable(m: Placement, name: string)
    ensures GetNameFromGroup(GetNameFromGroup(m, name).0, name) == GetNameFromGroup(m, name)
  {
  }
}

=== FILE: sss_policy.dfy ===
/** The Stationary Security Service (SSS) policy: stage data derivation,
    the derived actions the base executor hands over, the per-tick
    deployment decision over an ordered strategy list with role quotas, and
    the start-over check. */
module SssPolicy {
  import opened BattleTypes
  import opened Groups
  import Waits
  import Executor

  /** A role demand of a strategy: deploy `quantity` more tool operators of `role`. */
  datatype Quota = Quota(role: Role, quantity: int)

  /** A strategy: its core operator (empty for none), its role quotas in
      iteration order, and where deployments for it go. */
  datatype Strategy = Strategy(core: string, toolMen: seq<Quota>, location: Location, direction: Direction)

  /** The copilot data of one SSS stage, with the number of retries the
      stage manager allows after a lost attempt. */
  datatype StageData = StageData(
    stageName: string,
    retryTimes: int,
    strategies: seq<Strategy>,
    actions: seq<Action>,
    drawAsPossible: bool,
    orderOfDrops: seq<string>)

  /** The policy's state: the loaded stage data (whose quotas the ticks
      consume), the core-name set and the names of scripted Deploy actions. */
  datatype PolicyState = PolicyState(data: StageData, cores: set<string>, actionOpers: set<string>)

  function CoreNames(strategies: seq<Strategy>): set<string> {
    set i | 0 <= i < |strategies| :: strategies[i].core
  }

  function DeployNames(actions: seq<Action>): set<string> {
    set i | 0 <= i < |actions| && actions[i].kind.Deploy? :: actions[i].name
  }

  /** Selecting a stage. An unknown name loads nothing; a known one loads
      its data and adds its cores and Deploy names to the sets (which are
      never cleared); the result also depends on loading the stage's map. */
  function SetStageName(config: map<string, StageData>, name: string, st: PolicyState, tilesOk: bool): (r: (bool, PolicyState))
    ensures name !in config ==> !r.0 && r.1 == st
    ensures r.0 <==> name in config && tilesOk
    ensures name in config ==> r.1.data == config[name]
    ensures name in config ==>
              forall n :: n in r.1.cores <==> n in st.cores || exists i :: 0 <= i < |config[name].strategies| && config[name].strategies[i].core == n
    ensures name in config ==>
              forall n :: n in r.1.actionOpers <==>
                n in st.actionOpers || exists i :: 0 <= i < |config[name].actions| && config[name].actions[i].kind.Deploy? && config[name].actions[i].name == n
  {
    if name !in config then (false, st)
    else
      var d := config[name];
      (tilesOk, PolicyState(d, st.cores + CoreNames(d.strategies), st.actionOpers + DeployNames(d.actions)))
  }

  /** The prologue of an SSS attempt. The naming pass of `to_group` walks
      the base task's action list, which an SSS task never fills (its stage
      data is kept apart), so it is given no actions: a scripted name that
      is neither allocated nor on the panel is not placed up front, and
      resolves to itself only when an action first looks it up. */
  function StartSssAttempt(tilesOk: bool, t: Waits.Tracker, groups: GroupTable,
                           alloc: Option<Placement>, order: seq<string>): (r: Executor.Attempt)
    requires alloc.Some? ==> forall i :: 0 <= i < |order| ==> order[i] in Place(alloc.value, t.roster, [])
    requires alloc.Some? ==> forall k :: k in Place(alloc.value, t.roster, []) ==> k in order
    ensures r.NoStageInfo? <==> !tilesOk
    ensures r.Started? ==> !r.state.inBulletTime && (r.grouped <==> alloc.Some?)
    ensures r.Started? ==>
              forall k :: k in r.state.placement ==> alloc.Some? && (k in alloc.value || k in RosterNames(t.roster))
  {
    Executor.StartAttempt(tilesOk, t, groups, [], alloc, order)
  }

  /** The panel operators named as cores, in panel order. */
  function CoreOpers(roster: Roster, cores: set<string>): (r: Roster)
    ensures forall o :: o in r <==> o in roster && o.name in cores
    ensures |roster| == 1 ==> r == if roster[0].name in cores then roster else []
  {
    if |roster| == 0 then []
    else (if roster[0].name in cores then [roster[0]] else []) + CoreOpers(roster[1..], cores)
  }

  /** The core operators of two parts of the panel are those of the first
      part followed by those of the second, so panel order is kept. */
  lemma {:induction false} CoreOpersAppend(a: Roster, b: Roster, cores: set<string>)
    ensures CoreOpers(a + b, cores) == CoreOpers(a, cores) + CoreOpers(b, cores)
    decreases |a|
  {
    if |a| == 0 {
      assert a + b == b;
    } else {
      assert (a + b)[0] == a[0] && (a + b)[1..] == a[1..] + b;
      CoreOpersAppend(a[1..], b, cores);
    }
  }

  /** The tool operators: panel operators that are neither cores nor named
      by a scripted Deploy action, in panel order. */
  function ToolMen(roster: Roster, cores: set<string>, actionOpers: set<string>): (r: Roster)
    ensures forall o :: o in r <==> o in roster && o.name !in cores && o.name !in actionOpers
    ensures |roster| == 1 ==> r == if roster[0].name !in cores && roster[0].name !in actionOpers then roster else []
  {
    if |roster| == 0 then []
    else (if roster[0].name !in cores && roster[0].name !in actionOpers then [roster[0]] else []) + ToolMen(roster[1..], cores, actionOpers)
  }

  /** The tool list of a split panel is the tool list of its first part
      followed by that of its second, so with the one-operator case the
      tool operators keep their panel order. */
  lemma {:induction false} ToolMenAppend(a: Roster, b: Roster, cores: set<string>, actionOpers: set<string>)
    ensures ToolMen(a + b, cores, actionOpers) == ToolMen(a, cores, actionOpers) + ToolMen(b, cores, actionOpers)
    decreases |a|
  {
    if |a| == 0 {
      assert a + b == b;
    } else {
      assert (a + b)[0] == a[0] && (a + b)[1..] == a[1..] + b;
      ToolMenAppend(a[1..], b, cores, actionOpers);
    }
  }

  /** Tool operators use their skill whenever it is ready, unless a usage
      is already recorded for them. */
  function DefaultToolUsage(usage: UsageTable, tools: Roster): (r: UsageTable)
    ensures forall n :: n in usage ==> n in r && r[n] == usage[n]
    ensures forall o :: o in tools && o.name !in usage ==> o.name in r && r[o.name] == Possibly
    ensures forall n :: n in r ==> n in usage || exists o :: o in tools && o.name == n
    decreases |tools|
  {
    if |tools| == 0 then usage
    else
      var u := if tools[0].name in usage then usage else usage[tools[0].name := Possibly];
      DefaultToolUsage(u, tools[1..])
  }

  /** The first tool operator of `role` that is available. */
  function FirstAvailable(tools: Roster, role: Role): (r: Option<DeploymentOper>)
    ensures r.None? <==> forall i :: 0 <= i < |tools| ==> !(tools[i].available && tools[i].role == role)
    ensures r.Some? ==> exists i :: 0 <= i < |tools| && tools[i] == r.value && r.value.available && r.value.role == role
                          && forall j :: 0 <= j < i ==> !(tools[j].available && tools[j].role == role)
  {
    if |tools| == 0 then None
    else if tools[0].available && tools[0].role == role then Some(tools[0])
    else
      var r := FirstAvailable(tools[1..], role);
      assert forall i :: 1 <= i < |tools| ==> tools[i] == tools[1..][i - 1];
      r
  }

  predicate HasRole(tools: Roster, role: Role) {
    exists i :: 0 <= i < |tools| && tools[i].role == role
  }

  /** Every quota is already filled. */
  predicate AllQuotasMet(quotas: seq<Quota>) {
    forall q :: 0 <= q < |quotas| ==> quotas[q].quantity <= 0
  }

  /** No open quota has a tool operator of its role at all. */
  predicate NoToolForOpenQuota(quotas: seq<Quota>, tools: Roster) {
    forall q :: 0 <= q < |quotas| && quotas[q].quantity > 0 ==> !HasRole(tools, quotas[q].role)
  }

  /** A strategy deploys its core once its quotas are filled and the core is on the panel. */
  predicate CoreEligible(st: Strategy, coreOpers: Roster) {
    AllQuotasMet(st.toolMen) && st.core != "" && OnPanel(coreOpers, st.core)
  }

  /** A strategy the tick passes over to look at the next one. */
  predicate PassedOver(st: Strategy, coreOpers: Roster, tools: Roster) {
    !CoreEligible(st, coreOpers) && NoToolForOpenQuota(st.toolMen, tools)
  }

  /** The outcome of scanning one strategy's quotas: deploy tool operator
      `name` for quota `q`, wait at quota `q`, or pass on. */
  datatype QuotaPick = QDeploy(q: nat, name: string) | QHalt(q: nat) | QPass

  function QuotaScan(quotas: seq<Quota>, tools: Roster): (r: QuotaPick)
    ensures r.QPass? <==> NoToolForOpenQuota(quotas, tools)
    ensures !r.QPass? ==> r.q < |quotas| && quotas[r.q].quantity > 0 && NoToolForOpenQuota(quotas[..r.q], tools)
    ensures r.QDeploy? ==> FirstAvailable(tools, quotas[r.q].role).Some?
                           && FirstAvailable(tools, quotas[r.q].role).value.name == r.name
    ensures r.QHalt? ==> HasRole(tools, quotas[r.q].role) && FirstAvailable(tools, quotas[r.q].role).None?
  {
    if |quotas| == 0 then QPass
    else
      var head := quotas[0];
      var rest := QuotaScan(quotas[1..], tools);
      if head.quantity > 0 && FirstAvailable(tools, head.role).Some? then
        QDeploy(0, FirstAvailable(tools, head.role).value.name)
      else if head.quantity > 0 && HasRole(tools, head.role) then
        assert FirstAvailable(tools, head.role).None?;
        QHalt(0)
      else
        NoToolCons(quotas, tools);
        match rest
        case QPass => QPass
        case QDeploy(q, n) =>
          assert quotas[q + 1] == quotas[1..][q] && quotas[..q + 1][1..] == quotas[1..][..q];
          NoToolCons(quotas[..q + 1], tools);
          QDeploy(q + 1, n)
        case QHalt(q) =>
          assert quotas[q + 1] == quotas[1..][q] && quotas[..q + 1][1..] == quotas[1..][..q];
          NoToolCons(quotas[..q + 1], tools);
          QHalt(q + 1)
  }

  /** The no-tool condition of a quota list, split at its first quota. */
  lemma NoToolCons(quotas: seq<Quota>, tools: Roster)
    requires |quotas| > 0
    ensures NoToolForOpenQuota(quotas, tools) <==>
              (quotas[0].quantity <= 0 || !HasRole(tools, quotas[0].role)) && NoToolForOpenQuota(quotas[1..], tools)
  {
    assert forall q :: 1 <= q < |quotas| ==> quotas[q] == quotas[1..][q - 1];
  }

  /** The decision of one tick. */
  datatype Decision =
    | NotInBattle
    | DeployCore(strategy: nat, name: string)
    | DeployTool(strategy: nat, quota: nat, name: string)
    | Halt(strategy: nat)
    | Idle

  /** Walks the strategies from `k` on, in order, and stops at the first
      that deploys or must be waited for. */
  function Decide(strategies: seq<Strategy>, k: nat, coreOpers: Roster, tools: Roster): (r: Decision)
    requires k <= |strategies|
    ensures !r.NotInBattle?
    ensures r.Idle? <==> forall j :: k <= j < |strategies| ==> PassedOver(strategies[j], coreOpers, tools)
    ensures r.DeployCore? || r.DeployTool? || r.Halt? ==>
              k <= r.strategy < |strategies| && forall j :: k <= j < r.strategy ==> PassedOver(strategies[j], coreOpers, tools)
    ensures r.DeployCore? ==>
              CoreEligible(strategies[r.strategy], coreOpers) && r.name == strategies[r.strategy].core
              && FindOper(coreOpers, r.name).value.available
    ensures r.DeployTool? ==>
              !CoreEligible(strategies[r.strategy], coreOpers)
              && QuotaScan(strategies[r.strategy].toolMen, tools) == QDeploy(r.quota, r.name)
    ensures r.Halt? ==>
              var st := strategies[r.strategy];
              (CoreEligible(st, coreOpers) && !FindOper(coreOpers, st.core).value.available)
              || (!CoreEligible(st, coreOpers) && QuotaScan(st.toolMen, tools).QHalt?)
    decreases |strategies| - k
  {
    if k == |strategies| then Idle
    else
      var st := strategies[k];
      if CoreEligible(st, coreOpers) then
        if FindOper(coreOpers, st.core).value.available then DeployCore(k, st.core) else Halt(k)
      else match QuotaScan(st.toolMen, tools)
        case QDeploy(q, n) => DeployTool(k, q, n)
        case QHalt(_) => Halt(k)
        case QPass => Decide(strategies, k + 1, coreOpers, tools)
  }

  /** The strategy list after quota `q` of strategy `k` was used once. */
  function ConsumeQuota(strategies: seq<Strategy>, k: nat, q: nat): (r: seq<Strategy>)
    requires k < |strategies| && q < |strategies[k].toolMen|
    ensures |r| == |strategies| && |r[k].toolMen| == |strategies[k].toolMen|
    ensures r[k].toolMen[q].quantity == strategies[k].toolMen[q].quantity - 1
    ensures r[k].toolMen[q].role == strategies[k].toolMen[q].role
    ensures forall j :: 0 <= j < |r| && j != k ==> r[j] == strategies[j]
    ensures forall p :: 0 <= p < |r[k].toolMen| && p != q ==> r[k].toolMen[p] == strategies[k].toolMen[p]
    ensures r[k].core == strategies[k].core && r[k].location == strategies[k].location && r[k].direction == strategies[k].direction
  {
    var st := strategies[k];
    var quota := st.toolMen[q];
    strategies[k := st.(toolMen := st.toolMen[q := quota.(quantity := quota.quantity - 1)])]
  }

  /** One tick's effects: the value returned, the decision, the strategy
      list and usage table afterwards, and whether the idle side actions
      (drawing a card, using every ready skill) ran. */
  datatype Tick = Tick(ret: bool, decision: Decision, strategies: seq<Strategy>, usage: UsageTable, drew: bool, usedSkills: bool)

  /** `do_strategic_action` on the refreshed panel `roster`. `deployOk` is
      the result of the deployment it makes, if any. */
  function DoStrategicAction(st: PolicyState, roster: Roster, inBattle: bool, usage: UsageTable, deployOk: bool): (r: Tick)
    ensures !inBattle ==> r == Tick(false, NotInBattle, st.data.strategies, usage, false, false)
    ensures inBattle ==> r.usage == DefaultToolUsage(usage, ToolMen(roster, st.cores, st.actionOpers))
    ensures inBattle ==> r.decision == Decide(st.data.strategies, 0, CoreOpers(roster, st.cores), ToolMen(roster, st.cores, st.actionOpers))
    ensures r.decision.DeployCore? || r.decision.DeployTool? ==> r.ret == deployOk && !r.drew && !r.usedSkills
    ensures r.decision.Halt? || r.decision.Idle? ==> r.ret && r.usedSkills && r.drew == st.data.drawAsPossible
    ensures r.decision.DeployTool? ==>
              r.decision.strategy < |st.data.strategies| && r.decision.quota < |st.data.strategies[r.decision.strategy].toolMen|
              && r.strategies == ConsumeQuota(st.data.strategies, r.decision.strategy, r.decision.quota)
    ensures !r.decision.DeployTool? ==> r.strategies == st.data.strategies
  {
    if !inBattle then Tick(false, NotInBattle, st.data.strategies, usage, false, false)
    else
      var coreOpers := CoreOpers(roster, st.cores);
      var tools := ToolMen(roster, st.cores, st.actionOpers);
      var u := DefaultToolUsage(usage, tools);
      var strategies := st.data.strategies;
      match Decide(strategies, 0, coreOpers, tools)
      case DeployCore(k, n) => Tick(deployOk, DeployCore(k, n), strategies, u, false, false)
      case DeployTool(k, q, n) => Tick(deployOk, DeployTool(k, q, n), ConsumeQuota(strategies, k, q), u, false, false)
      case Halt(k) => Tick(true, Halt(k), strategies, u, st.data.drawAsPossible, true)
      case Idle => Tick(true, Idle, strategies, u, st.data.drawAsPossible, true)
      case NotInBattle => assert false; Tick(false, NotInBattle, strategies, u, false, false)
  }

  /** Strict priority: a strategy is serviced only if no strategy before it
      has an open quota with any tool operator of that role, available or not. */
  lemma {:induction false} HigherPriorityBlocks(st: PolicyState, roster: Roster, usage: UsageTable, deployOk: bool, j: nat, q: nat)
    requires var d := DoStrategicAction(st, roster, true, usage, deployOk).decision;
             (d.DeployCore? || d.DeployTool?) && j < d.strategy
    requires q < |st.data.strategies[j].toolMen| && st.data.strategies[j].toolMen[q].quantity > 0
    ensures !HasRole(ToolMen(roster, st.cores, st.actionOpers), st.data.strategies[j].toolMen[q].role)
  {
    var tools := ToolMen(roster, st.cores, st.actionOpers);
    var d := Decide(st.data.strategies, 0, CoreOpers(roster, st.cores), tools);
    assert PassedOver(st.data.strategies[j], CoreOpers(roster, st.cores), tools);
  }

  /** A deployment decided for a tool operator picks an available operator
      of the quota's role, and the first such in panel order. */
  lemma ToolDeploymentPicksFirstAvailable(strategies: seq<Strategy>, coreOpers: Roster, tools: Roster)
    requires Decide(strategies, 0, coreOpers, tools).DeployTool?
    ensures var d := Decide(strategies, 0, coreOpers, tools);
            var quota := strategies[d.strategy].toolMen[d.quota];
            quota.quantity > 0
            && exists i :: 0 <= i < |tools| && tools[i].name == d.name && tools[i].available && tools[i].role == quota.role
                 && forall j :: 0 <= j < i ==> !(tools[j].available && tools[j].role == quota.role)
  {
    var d := Decide(strategies, 0, coreOpers, tools);
    var quota := strategies[d.strategy].toolMen[d.quota];
    var pick := FirstAvailable(tools, quota.role);
    assert pick.Some? && pick.value.name == d.name;
  }

  /** Number of panel operators of `role`. */
  function RoleCount(roster: Roster, role: Role): nat {
    if |roster| == 0 then 0
    else RoleCount(roster[..|roster| - 1], role) + (if roster[|roster| - 1].role == role then 1 else 0)
  }

  /** The action names an operator that is neither on the panel nor on the field. */
  predicate NameMissing(a: Action, roster: Roster, battlefield: set<string>) {
    a.name != "" && !OnPanel(roster, a.name) && a.name !in battlefield
  }

  /** Some demanded role has fewer operators on the panel than demanded. */
  predicate RoleShort(a: Action, roster: Roster) {
    exists i :: 0 <= i < |a.roleCounts| && RoleCount(roster, a.roleCounts[i].role) < a.roleCounts[i].number
  }

  /** `check_if_start_over`: decides whether to abandon the battle, and
      always reports success. */
  method CheckIfStartOver(a: Action, roster: Roster, battlefield: set<string>) returns (abandon: bool, ret: bool)
    ensures ret
    ensures abandon <==> NameMissing(a, roster, battlefield) || RoleShort(a, roster)
  {
    abandon := false;
    if a.name != "" && !OnPanel(roster, a.name) && a.name !in battlefield {
      abandon := true;
    } else if |a.roleCounts| > 0 {
      var counts: map<Role, nat> := map[];
      var i := 0;
      while i < |roster|
        invariant 0 <= i <= |roster|
        invariant forall r :: (if r in counts then counts[r] else 0) == RoleCount(roster[..i], r)
      {
        var role := roster[i].role;
        var c := if role in counts then counts[role] else 0;
        counts := counts[role := c + 1];
        assert roster[..i + 1][..i] == roster[..i];
        i := i + 1;
      }
      assert roster[..i] == roster;
      var k := 0;
      while k < |a.roleCounts|
        invariant 0 <= k <= |a.roleCounts|
        invariant !abandon
        invariant forall j :: 0 <= j < k ==> RoleCount(roster, a.roleCounts[j].role) >= a.roleCounts[j].number
      {
        var rc := a.roleCounts[k];
        if (if rc.role in counts then counts[rc.role] else 0) < rc.number {
          abandon := true;
          break;
        }
        k := k + 1;
      }
    }
    ret := true;
  }

  /** What a derived action did besides returning its result. */
  datatype DerivedEffect = DrewCard | StartOverChecked(abandon: bool) | CancelDrops | PickDrops(order: seq<string>) | Unhandled

  /** `do_derived_action`: the SSS kinds the base executor does not know.
      `drawOk` and `dropsOk` are the results of the draw and drop tasks. */
  function DoDerivedAction(a: Action, data: StageData, roster: Roster, battlefield: set<string>, drawOk: bool, dropsOk: bool): (r: (bool, DerivedEffect))
    ensures IsBaseAction(a.kind) <==> r.1.Unhandled?
    ensures r.1.Unhandled? ==> !r.0
    ensures a.kind.CheckIfStartOver? ==>
              r.0 && r.1 == StartOverChecked(NameMissing(a, roster, battlefield) || RoleShort(a, roster))
    ensures a.kind.GetDrops? ==> r.0 == dropsOk && (r.1.CancelDrops? <==> |data.orderOfDrops| == 0)
    ensures a.kind.DrawCard? ==> r == (drawOk, DrewCard)
  {
    match a.kind
    case DrawCard => (drawOk, DrewCard)
    case CheckIfStartOver => (true, StartOverChecked(NameMissing(a, roster, battlefield) || RoleShort(a, roster)))
    case GetDrops => (dropsOk, if |data.orderOfDrops| == 0 then CancelDrops else PickDrops(data.orderOfDrops))
    case _ => (false, Unhandled)
  }

  /** The base executor hands the SSS kinds to `do_derived_action`: when the
      device answer of such a step is the hook's result, a dispatched step
      records a derived command and returns that result, so a dispatched
      CheckIfStartOver step always succeeds. */
  lemma DerivedStepReturnsHookResult(actions: seq<Action>, i: nat, s: Executor.ExecState, o: Executor.StepOracle,
                                     data: StageData, roster: Roster, battlefield: set<string>, drawOk: bool, dropsOk: bool)
    requires i < |actions| && !IsBaseAction(actions[i].kind)
    requires o.commandOk == DoDerivedAction(actions[i], data, roster, battlefield, drawOk, dropsOk).0
    ensures var step := Executor.DoAction(actions, i, s, o);
            step.Done? && step.dispatched ==>
              && step.command == Executor.Derived(i)
              && step.ret == DoDerivedAction(actions[i], data, roster, battlefield, drawOk, dropsOk).0
    ensures var step := Executor.DoAction(actions, i, s, o);
            step.Done? && step.dispatched ==>
              && (actions[i].kind.CheckIfStartOver? ==> step.ret)
              && (actions[i].kind.DrawCard? ==> step.ret == drawOk)
              && (actions[i].kind.GetDrops? ==> step.ret == dropsOk)
  {
  }
}

=== FILE: sss_stage.dfy ===
/** The SSS stage manager: recognises the current stage by its name, runs
    up to the stage's retry budget plus one battle attempts, and settles
    (gives the run up) on an unknown stage or when no attempt was won. */
module SssStage {
  import opened BattleTypes
  import opened SssPolicy

  /** Retries per stage name, filled once from the stage table. Every stage
      of the table gets its configured count; other entries stay as they were. */
  function PreprocessData(remaining: map<string, int>, stages: map<string, StageData>): (r: map<string, int>)
    ensures r.Keys == remaining.Keys + stages.Keys
    ensures forall s :: s in stages ==> r[s] == stages[s].retryTimes
    ensures forall s :: s in remaining && s !in stages ==> r[s] == remaining[s]
  {
    map s | s in remaining.Keys + stages.Keys :: if s in stages then stages[s].retryTimes else remaining[s]
  }

  /** One text line the stage-name recogniser reports, with its confidence. */
  datatype OcrResult = OcrResult(text: string, score: real)

  /** The result with the highest score; among equal scores the earliest. */
  function Best(results: seq<OcrResult>): (r: OcrResult)
    requires |results| > 0
    ensures exists i :: 0 <= i < |results| && results[i] == r && forall j :: 0 <= j < i ==> results[j].score < r.score
    ensures forall j :: 0 <= j < |results| ==> results[j].score <= r.score
  {
    if |results| == 1 then results[0]
    else
      var b := Best(results[1..]);
      assert forall j :: 1 <= j < |results| ==> results[j] == results[1..][j - 1];
      if results[0].score >= b.score then results[0] else b
  }

  /** `analyze_stage`: the recognised name, if the recogniser saw anything
      and its best text names a stage of the table exactly. */
  function AnalyzeStage(results: seq<OcrResult>, stages: map<string, StageData>): (r: Option<string>)
    ensures r.None? <==> |results| == 0 || Best(results).text !in stages
    ensures r.Some? ==> r.value in stages
    ensures r.Some? ==> forall j :: 0 <= j < |results| && results[j].text != r.value ==>
                          exists i :: 0 <= i < |results| && results[i].text == r.value && results[i].score >= results[j].score
  {
    if |results| == 0 then None
    else
      var text := Best(results).text;
      if text in stages then Some(text) else None
  }

  /** One attempt as the device reports it: whether the start button was
      clicked, whether the battle task succeeded, and whether a stop was
      requested when it returned. */
  datatype AttemptOracle = AttemptOracle(clickOk: bool, runOk: bool, exitAfter: bool)

  /** The short-circuit `click && run && !need_exit` of one attempt. */
  predicate Wins(a: AttemptOracle) {
    a.clickOk && a.runOk && !a.exitAfter
  }

  /** The attempts loop's outcome: how many attempts were made and whether
      the last one won; `OutOfTrace` when the recorded attempts ran out. */
  datatype Attempts = Tried(success: bool, count: nat) | OutOfTrace

  /** The attempts loop from attempt `i` on, for a budget of `times` attempts. */
  function RunAttempts(times: int, attempts: seq<AttemptOracle>, i: nat): (r: Attempts)
    requires i <= |attempts| && forall j :: 0 <= j < i ==> !Wins(attempts[j])
    ensures r.Tried? ==> i <= r.count <= |attempts| && (r.count <= times || r.count == i)
    ensures r.Tried? ==> forall j :: 0 <= j < r.count - 1 ==> !Wins(attempts[j])
    ensures r.Tried? ==> (r.success <==> r.count > 0 && Wins(attempts[r.count - 1]) && r.count - 1 >= i)
    ensures r.Tried? && !r.success ==> r.count == if times > i then times else i
    ensures r.OutOfTrace? <==> |attempts| < times && forall j :: i <= j < |attempts| ==> !Wins(attempts[j])
    decreases |attempts| - i
  {
    if i >= times then Tried(false, i)
    else if i == |attempts| then OutOfTrace
    else if Wins(attempts[i]) then Tried(true, i + 1)
    else RunAttempts(times, attempts, i + 1)
  }

  /** The oracle of one round of the manager's loop: the stop request at
      the loop head, the recogniser's results, the attempts, and the stop
      request after the attempts. */
  datatype RoundOracle = RoundOracle(exitBefore: bool, ocr: seq<OcrResult>, attempts: seq<AttemptOracle>, exitAfter: bool)

  /** What one round did. An unrecognised stage is settled at once; a
      fought one is settled when no attempt won and no stop was requested. */
  datatype Round = Unrecognised | Fought(stage: string, times: int, outcome: Attempts, settled: bool)

  /** One round after the stage was confirmed complete. */
  function PlayRound(stages: map<string, StageData>, remaining: map<string, int>, o: RoundOracle): (r: Round)
    requires stages.Keys <= remaining.Keys
    ensures r.Unrecognised? <==> AnalyzeStage(o.ocr, stages).None?
    ensures r.Fought? ==> r.stage in stages && AnalyzeStage(o.ocr, stages) == Some(r.stage) && r.times == remaining[r.stage] + 1
    ensures r.Fought? ==> r.outcome == RunAttempts(r.times, o.attempts, 0)
    ensures r.Fought? ==> (r.settled <==> r.outcome.Tried? && !r.outcome.success && !o.exitAfter)
    ensures r.Fought? && r.outcome.Tried? ==> r.outcome.count <= (if r.times > 0 then r.times else 0)
  {
    match AnalyzeStage(o.ocr, stages)
    case None => Unrecognised
    case Some(stage) =>
      var times := remaining[stage] + 1;
      var outcome := RunAttempts(times, o.attempts, 0);
      Fought(stage, times, outcome, outcome.Tried? && !outcome.success && !o.exitAfter)
  }

  /** A round after which the manager's loop goes on to its head. */
  predicate GoesOn(r: Round) {
    r.Fought? && r.outcome.Tried?
  }

  /** Why the manager stopped: a stop request at the loop head, an
      unrecognised stage, or the end of the recorded rounds. */
  datatype ManagerEnd = Stopped | UnknownStage | TraceEnded

  datatype ManagerRun = ManagerRun(remaining: map<string, int>, rounds: seq<Round>, end: ManagerEnd)

  /** The manager's loop over the remaining rounds, where `plays[j]` is
      what round `j` does once it is reached. */
  function Loop(oracle: seq<RoundOracle>, plays: seq<Round>): (r: (seq<Round>, ManagerEnd))
    requires |plays| == |oracle|
    ensures |r.0| <= |oracle| && r.0 == plays[..|r.0|]
    ensures forall j :: 0 <= j < |r.0| ==> !oracle[j].exitBefore
    ensures forall j :: 0 <= j < |r.0| - 1 ==> GoesOn(r.0[j])
    ensures r.1 == Stopped ==> |r.0| < |oracle| && oracle[|r.0|].exitBefore && (|r.0| == 0 || GoesOn(r.0[|r.0| - 1]))
    ensures r.1 == UnknownStage <==> |r.0| > 0 && r.0[|r.0| - 1].Unrecognised?
    ensures r.1 == TraceEnded ==>
              (|r.0| == |oracle| && (|r.0| == 0 || GoesOn(r.0[|r.0| - 1])))
              || (|r.0| > 0 && r.0[|r.0| - 1].Fought? && r.0[|r.0| - 1].outcome.OutOfTrace?)
  {
    if |oracle| == 0 then ([], TraceEnded)
    else if oracle[0].exitBefore then ([], Stopped)
    else
      var round := plays[0];
      if round.Unrecognised? then ([round], UnknownStage)
      else if round.outcome.OutOfTrace? then ([round], TraceEnded)
      else
        var rest := Loop(oracle[1..], plays[1..]);
        var rounds := [round] + rest.0;
        assert forall j :: 1 <= j < |rounds| ==> rounds[j] == rest.0[j - 1] && oracle[j] == oracle[1..][j - 1];
        assert |rest.0| > 0 ==> rounds[|rounds| - 1] == rest.0[|rest.0| - 1];
        assert rounds == plays[..|rounds|];
        (rounds, rest.1)
  }

  /** What each recorded round does once it is reached. */
  function Plays(stages: map<string, StageData>, remaining: map<string, int>, oracle: seq<RoundOracle>): (r: seq<Round>)
    requires stages.Keys <= remaining.Keys
    ensures |r| == |oracle|
    ensures forall j :: 0 <= j < |oracle| ==> r[j] == PlayRound(stages, remaining, oracle[j])
  {
    if |oracle| == 0 then []
    else [PlayRound(stages, remaining, oracle[0])] + Plays(stages, remaining, oracle[1..])
  }

  /** `_run`: fill the retry table, then play rounds until a stop request
      or an unrecognised stage. */
  function RunManager(stages: map<string, StageData>, remaining: map<string, int>, oracle: seq<RoundOracle>): (r: ManagerRun)
    ensures r.remaining == PreprocessData(remaining, stages)
    ensures (r.rounds, r.end) == Loop(oracle, Plays(stages, r.remaining, oracle))
    ensures forall j :: 0 <= j < |r.rounds| ==> j < |oracle| && r.rounds[j] == PlayRound(stages, r.remaining, oracle[j])
    ensures forall j :: 0 <= j < |r.rounds| && r.rounds[j].Fought? ==>
              r.rounds[j].stage in stages && r.rounds[j].times == stages[r.rounds[j].stage].retryTimes + 1
    ensures forall j :: 0 <= j < |r.rounds| && r.rounds[j].Unrecognised? ==> j == |r.rounds| - 1 && r.end == UnknownStage
    ensures forall j :: 0 <= j < |r.rounds| && r.rounds[j].Fought? && r.rounds[j].settled && j + 1 < |oracle| && !oracle[j + 1].exitBefore ==>
              j + 1 < |r.rounds|
  {
    var rem := PreprocessData(remaining, stages);
    var plays := Plays(stages, rem, oracle);
    var run := Loop(oracle, plays);
    assert forall j :: 0 <= j < |run.0| ==> run.0[j] == plays[j];
    assert forall s :: s in stages ==> rem[s] == stages[s].retryTimes;
    forall j | 0 <= j < |run.0| && run.0[j].Fought? && run.0[j].settled && j + 1 < |oracle| && !oracle[j + 1].exitBefore
      ensures j + 1 < |run.0|
    {
      assert GoesOn(run.0[j]);
      LoopGoesOn(oracle, plays, j);
    }
    ManagerRun(rem, run.0, run.1)
  }

  /** A round that goes on to the loop head is followed by another unless
      a stop is requested or the recorded rounds end. */
  lemma LoopGoesOn(oracle: seq<RoundOracle>, plays: seq<Round>, j: nat)
    requires |plays| == |oracle|
    requires j < |Loop(oracle, plays).0| && GoesOn(Loop(oracle, plays).0[j])
    requires j + 1 < |oracle| && !oracle[j + 1].exitBefore
    ensures j + 1 < |Loop(oracle, plays).0|
  {
  }

  /** A stage with two retries is attempted three times when every attempt
      is lost, and then settled. */
  lemma TwoRetriesGiveThreeAttempts(stages: map<string, StageData>, remaining: map<string, int>, o: RoundOracle, name: string)
    requires stages.Keys <= remaining.Keys && name in stages && remaining[name] == 2
    requires AnalyzeStage(o.ocr, stages) == Some(name) && !o.exitAfter
    requires |o.attempts| >= 3 && forall j :: 0 <= j < 3 ==> !Wins(o.attempts[j])
    ensures PlayRound(stages, remaining, o) == Fought(name, 3, Tried(false, 3), true)
  {
    assert RunAttempts(3, o.attempts, 3) == Tried(false, 3);
  }

  /** An unrecognised stage is settled without any attempt and ends the run. */
  lemma {:induction false} UnknownStageEndsRun(stages: map<string, StageData>, remaining: map<string, int>, oracle: seq<RoundOracle>)
    requires |oracle| > 0 && !oracle[0].exitBefore && AnalyzeStage(oracle[0].ocr, stages).None?
    ensures RunManager(stages, remaining, oracle) == ManagerRun(PreprocessData(remaining, stages), [Unrecognised], UnknownStage)
  {
  }
}

=== FILE: types.dfy ===
/** Vocabulary shared by the battle copilot: action kinds, operator roles,
    skill-usage policies, the script's actions and the operators the vision
    layer reports on the deployment panel. */
module BattleTypes {

  datatype Option<+T> = None | Some(value: T)

  /** The action kinds of a copilot script, including the kinds only the
      Stationary Security Service (SSS) policy understands. */
  datatype ActionType =
    | Deploy | UseSkill | Retreat | SkillDaemon | SwitchSpeed | SkillUsage
    | BulletTime | Output | MoveCamera
    | DrawCard | CheckIfStartOver | GetDrops

  /** The kinds the base executor dispatches itself; every other kind goes
      to the policy's derived-action hook. */
  predicate IsBaseAction(t: ActionType) {
    !(t.DrawCard? || t.CheckIfStartOver? || t.GetDrops?)
  }

  /** The kinds that consume (and end) bullet time. */
  predicate IsOperatorAction(t: ActionType) {
    t.Deploy? || t.UseSkill? || t.Retreat?
  }

  /** The label the action notification reports for each kind, as the
      table is written: it has no entry for GetDrops, so the lookup for a
      GetDrops action throws (`None` here). */
  function ActionLabelAsWritten(t: ActionType): (r: Option<string>)
    ensures r.None? <==> t.GetDrops?
    ensures r.Some? ==> r.value != ""
  {
    match t
    case Deploy => Some("Deploy")
    case UseSkill => Some("UseSkill")
    case Retreat => Some("Retreat")
    case SkillDaemon => Some("SkillDaemon")
    case SwitchSpeed => Some("SwitchSpeed")
    case SkillUsage => Some("SkillUsage")
    case BulletTime => Some("BulletTime")
    case Output => Some("Output")
    case MoveCamera => Some("MoveCamera")
    case DrawCard => Some("DrawCard")
    case CheckIfStartOver => Some("CheckIfStartOver")
    case GetDrops => None
  }

  /** A GetDrops action, which only the SSS policy uses, has no label in
      the table as written. */
  lemma GetDropsHasNoLabelAsWritten()
    ensures ActionLabelAsWritten(GetDrops).None?
    ensures forall t :: t != GetDrops ==> ActionLabelAsWritten(t).Some?
  {
  }

  /** The notification label of every kind: the table with the missing
      GetDrops entry added. It agrees with the written table wherever that
      has an entry, and gives every kind a non-empty label. */
  function ActionLabel(t: ActionType): (r: string)
    ensures r != ""
    ensures t != GetDrops ==> ActionLabelAsWritten(t) == Some(r)
  {
    match t
    case Deploy => "Deploy"
    case UseSkill => "UseSkill"
    case Retreat => "Retreat"
    case SkillDaemon => "SkillDaemon"
    case SwitchSpeed => "SwitchSpeed"
    case SkillUsage => "SkillUsage"
    case BulletTime => "BulletTime"
    case Output => "Output"
    case MoveCamera => "MoveCamera"
    case DrawCard => "DrawCard"
    case CheckIfStartOver => "CheckIfStartOver"
    case GetDrops => "GetDrops"
  }

  /** Distinct kinds are reported under distinct labels. */
  lemma ActionLabelsDistinct(a: ActionType, b: ActionType)
    ensures ActionLabel(a) == ActionLabel(b) ==> a == b
  {
  }

  datatype Role =
    | Caster | Medic | Pioneer | Sniper | Special | Support | Tank | Warrior | Drone | Unknown

  datatype SkillUsagePolicy = NotUse | Possibly | Times | InTime

  datatype Direction = Right | Down | Left | Up | NoDirection

  /** A tile on the map; `Unset` is an action without a location. */
  datatype Location = Unset | Tile(x: int, y: int)

  /** One operator as the deployment panel shows it. */
  datatype DeploymentOper = DeploymentOper(name: string, role: Role, available: bool, cooling: bool)

  /** The panel in the order of its keys; each operator is keyed by its name. */
  type Roster = seq<DeploymentOper>

  /** One (role, number) demand of a CheckIfStartOver action. */
  datatype RoleCount = RoleCount(role: Role, number: nat)

  /** One scripted step. `costChanges`, `kills`, `costs` and `cooling` are
      its wait conditions; `modifyUsage` is used by SkillUsage actions and
      `roleCounts` by CheckIfStartOver actions. */
  datatype Action = Action(
    kind: ActionType,
    name: string,
    location: Location,
    direction: Direction,
    preDelay: nat,
    postDelay: nat,
    costChanges: int,
    kills: int,
    costs: int,
    cooling: int,
    modifyUsage: SkillUsagePolicy,
    roleCounts: seq<RoleCount>)

  /** The first operator on the panel with the given name. */
  function FindOper(roster: Roster, name: string): (r: Option<DeploymentOper>)
    ensures r.Some? ==> r.value in roster && r.value.name == name
    ensures r.None? <==> forall i | 0 <= i < |roster| :: roster[i].name != name
  {
    if |roster| == 0 then None
    else if roster[0].name == name then Some(roster[0])
    else FindOper(roster[1..], name)
  }

  predicate OnPanel(roster: Roster, name: string) {
    FindOper(roster, name).Some?
  }
}

=== FILE: waits.dfy ===
/** The wait conditions of an action: poll loops over successive screen
    captures that end when the condition is met, when cancellation is
    requested, or with failure when the in-battle check fails. */
module Waits {
  import opened BattleTypes
  import opened Groups

  /** What one screen capture tells the tracker. `exit` is the cancellation
      flag while this capture is the current image at a loop guard, and
      `inBattle` is the verdict of the in-battle check on it. */
  datatype Frame = Frame(exit: bool, inBattle: bool, cost: int, kills: int, roster: Roster)

  /** The live battle state: deployment panel, operators on the field,
      skill-usage table, kill count, cost and the in-battle flag. */
  datatype Tracker = Tracker(
    roster: Roster,
    battlefield: set<string>,
    usage: UsageTable,
    kills: int,
    cost: int,
    inBattle: bool)

  /** One poll loop of `wait_condition`. */
  datatype Wait =
    | CostDelta(baseline: int, delta: int)
    | KillsAtLeast(kills: int)
    | CostAtLeast(costs: int)
    | CoolingExactly(cooling: int)
    | Available(name: string)

  /** The cost-delta test. The direction of the comparison follows the sign
      of `baseline + delta`, not the sign of `delta`. */
  function CostDeltaMet(baseline: int, delta: int, cost: int): (met: bool)
    ensures cost == baseline + delta ==> met
    ensures delta > 0 && baseline >= 0 ==> (met <==> cost >= baseline + delta)
    ensures baseline + delta < 0 ==> (met <==> cost <= baseline + delta)
    ensures delta < 0 && baseline + delta >= 0 ==> met == (cost >= baseline + delta)
  {
    if baseline + delta < 0 then cost <= baseline + delta else cost >= baseline + delta
  }

  /** Number of operators on the panel that are cooling down. */
  function CoolingCount(roster: Roster): (n: nat)
    ensures n <= |roster|
    ensures n == 0 <==> forall i :: 0 <= i < |roster| ==> !roster[i].cooling
    ensures |roster| == 1 ==> n == if roster[0].cooling then 1 else 0
  {
    if |roster| == 0 then 0
    else (if roster[0].cooling then 1 else 0) + CoolingCount(roster[1..])
  }

  /** The count adds up over a split of the panel, so with the one-operator
      case it is the number of cooling operators. */
  lemma {:induction false} CoolingCountAppend(a: Roster, b: Roster)
    ensures CoolingCount(a + b) == CoolingCount(a) + CoolingCount(b)
    decreases |a|
  {
    if |a| > 0 {
      assert (a + b)[1..] == a[1..] + b;
      CoolingCountAppend(a[1..], b);
    } else {
      assert a + b == b;
    }
  }

  /** The panel shows `name` and it can be deployed now. */
  predicate IsAvailable(roster: Roster, name: string) {
    var o := FindOper(roster, name);
    o.Some? && o.value.available
  }

  /** The condition a loop waits for, read off one capture. */
  predicate Satisfied(w: Wait, f: Frame) {
    match w
    case CostDelta(p, d) => CostDeltaMet(p, d, f.cost)
    case KillsAtLeast(n) => f.kills >= n
    case CostAtLeast(n) => f.cost >= n
    case CoolingExactly(n) => CoolingCount(f.roster) == n
    case Available(name) => IsAvailable(f.roster, name)
  }

  /** The tracker after the loop's refresh call has read `f`. */
  function Refresh(w: Wait, t: Tracker, f: Frame): Tracker {
    match w
    case CostDelta(_, _) => t.(cost := f.cost)
    case CostAtLeast(_) => t.(cost := f.cost)
    case KillsAtLeast(_) => t.(kills := f.kills)
    case CoolingExactly(_) => t.(roster := f.roster)
    case Available(_) => t.(roster := f.roster)
  }

  /** The tracker holds the reading of `f` that `w` looks at. */
  predicate Reflects(w: Wait, t: Tracker, f: Frame) {
    match w
    case CostDelta(_, _) => t.cost == f.cost
    case CostAtLeast(_) => t.cost == f.cost
    case KillsAtLeast(_) => t.kills == f.kills
    case CoolingExactly(_) => t.roster == f.roster
    case Available(_) => t.roster == f.roster
  }

  /** The loop guard besides cancellation: the kill loop runs while too few
      kills are known, every other loop while the in-battle flag is set. */
  predicate Guard(w: Wait, t: Tracker) {
    if w.KillsAtLeast? then t.kills < w.kills else t.inBattle
  }

  /** A capture on which the loop stops, one way or another. */
  predicate Decisive(w: Wait, f: Frame) {
    f.exit || Satisfied(w, f) || !f.inBattle
  }

  /** No capture before index `k` stops the loop. */
  predicate Undecided(w: Wait, frames: seq<Frame>, k: int)
    requires 0 <= k <= |frames|
  {
    forall i :: 0 <= i < k ==> !Decisive(w, frames[i])
  }

  /** Outcome of one loop: it let execution go on with the remaining
      captures (the first of them is still the current image), it saw the
      battle end, or the captures ran out while it was still waiting. */
  datatype Polled = Continue(tracker: Tracker, rest: seq<Frame>) | Failed(tracker: Tracker) | Stalled

  /** One poll loop: refresh from the current capture, stop if met, fail if
      not in battle, otherwise run the idle hook and take the next capture. */
  function Poll(w: Wait, t: Tracker, frames: seq<Frame>): (r: Polled)
    ensures r.Failed? ==> !r.tracker.inBattle
    ensures |frames| > 0 && !Guard(w, t) ==> r == Continue(t, frames)
    ensures !r.Stalled? ==> r.tracker.usage == t.usage && r.tracker.battlefield == t.battlefield
    decreases |frames|
  {
    if |frames| == 0 then Stalled
    else
      var f := frames[0];
      if f.exit || !Guard(w, t) then Continue(t, frames)
      else
        var t' := Refresh(w, t, f);
        if Satisfied(w, f) then Continue(t', frames)
        else if !f.inBattle then Failed(t'.(inBattle := false))
        else Poll(w, t'.(inBattle := true), frames[1..])
  }

  /** A loop that is entered stalls only when no capture is decisive. */
  lemma {:induction false} PollStallsOnlyIfUndecided(w: Wait, t: Tracker, frames: seq<Frame>)
    requires Guard(w, t)
    ensures Poll(w, t, frames).Stalled? <==> Undecided(w, frames, |frames|)
    decreases |frames|
  {
    if |frames| > 0 {
      var f := frames[0];
      if !Decisive(w, f) {
        var t' := Refresh(w, t, f).(inBattle := true);
        assert Guard(w, t') by {
          if w.KillsAtLeast? { assert t'.kills == f.kills < w.kills; }
        }
        PollStallsOnlyIfUndecided(w, t', frames[1..]);
        ShiftUndecided(w, frames);
      }
    }
  }

  /** A loop that is entered and goes on stopped at its first decisive
      capture, which requests cancellation or meets the condition; in the
      latter case the tracker holds that capture's reading. */
  lemma {:induction false} PollContinuesAtFirstDecisive(w: Wait, t: Tracker, frames: seq<Frame>)
    requires Guard(w, t) && Poll(w, t, frames).Continue?
    ensures exists k :: 0 <= k < |frames| && Undecided(w, frames, k) && Poll(w, t, frames).rest == frames[k..]
              && (frames[k].exit || (Satisfied(w, frames[k]) && Reflects(w, Poll(w, t, frames).tracker, frames[k])))
    decreases |frames|
  {
    var f := frames[0];
    var r := Poll(w, t, frames);
    if !Decisive(w, f) {
      var t' := Refresh(w, t, f).(inBattle := true);
      var tail := frames[1..];
      assert Guard(w, t') by {
        if w.KillsAtLeast? { assert t'.kills == f.kills < w.kills; }
      }
      assert r == Poll(w, t', tail);
      PollContinuesAtFirstDecisive(w, t', tail);
      ShiftUndecided(w, frames);
      var k :| 0 <= k < |tail| && Undecided(w, tail, k) && r.rest == tail[k..]
               && (tail[k].exit || (Satisfied(w, tail[k]) && Reflects(w, r.tracker, tail[k])));
      assert tail[k] == frames[k + 1] && tail[k..] == frames[k + 1..];
      assert Undecided(w, frames, k + 1) && r.rest == frames[k + 1..];
    } else {
      assert Undecided(w, frames, 0) && frames[0..] == frames;
      assert r.rest == frames[0..];
      assert f.exit || (Satisfied(w, f) && Reflects(w, r.tracker, f));
    }
  }

  /** A loop that is entered and fails met an out-of-battle capture before
      any capture that requested cancellation or met the condition. */
  lemma {:induction false} PollFailsAtFirstDecisive(w: Wait, t: Tracker, frames: seq<Frame>)
    requires Guard(w, t) && Poll(w, t, frames).Failed?
    ensures exists k :: 0 <= k < |frames| && Undecided(w, frames, k)
              && !frames[k].exit && !Satisfied(w, frames[k]) && !frames[k].inBattle
    decreases |frames|
  {
    var f := frames[0];
    if !Decisive(w, f) {
      var t' := Refresh(w, t, f).(inBattle := true);
      var tail := frames[1..];
      assert Guard(w, t') by {
        if w.KillsAtLeast? { assert t'.kills == f.kills < w.kills; }
      }
      PollFailsAtFirstDecisive(w, t', tail);
      ShiftUndecided(w, frames);
      var k :| 0 <= k < |tail| && Undecided(w, tail, k)
               && !tail[k].exit && !Satisfied(w, tail[k]) && !tail[k].inBattle;
      assert tail[k] == frames[k + 1];
      assert Undecided(w, frames, k + 1);
    } else {
      assert Undecided(w, frames, 0);
    }
  }

  /** Undecided prefixes of a capture sequence and of its tail correspond. */
  lemma ShiftUndecided(w: Wait, frames: seq<Frame>)
    requires |frames| > 0 && !Decisive(w, frames[0])
    ensures forall k :: 0 <= k <= |frames| - 1 ==> (Undecided(w, frames[1..], k) <==> Undecided(w, frames, k + 1))
  {
    forall k | 0 <= k <= |frames| - 1
      ensures Undecided(w, frames[1..], k) <==> Undecided(w, frames, k + 1)
    {
      assert forall i :: 0 <= i < k ==> frames[1..][i] == frames[i + 1];
    }
  }

  /** A loop that is entered and meets a decisive capture stops there:
      it fails exactly when that capture is out of battle, whatever the
      other conditions say. */
  lemma {:induction false} PollStopsAtFirstDecisive(w: Wait, t: Tracker, frames: seq<Frame>, k: int)
    requires Guard(w, t) && 0 <= k < |frames| && Undecided(w, frames, k) && Decisive(w, frames[k])
    ensures Poll(w, t, frames).Failed? <==> !frames[k].exit && !Satisfied(w, frames[k]) && !frames[k].inBattle
    ensures Poll(w, t, frames).Continue? ==> Poll(w, t, frames).rest == frames[k..]
    decreases k
  {
    var f := frames[0];
    if k > 0 {
      var t' := Refresh(w, t, f).(inBattle := true);
      assert !Decisive(w, f);
      assert Guard(w, t') by {
        if w.KillsAtLeast? { assert t'.kills == f.kills < w.kills; }
      }
      assert forall i :: 1 <= i < |frames| ==> frames[i] == frames[1..][i - 1];
      assert Undecided(w, frames[1..], k - 1);
      PollStopsAtFirstDecisive(w, t', frames[1..], k - 1);
      assert frames[1..][k - 1..] == frames[k..];
    }
  }

  /** What a loop that let execution go on guarantees: either its guard was
      false and it read nothing, or it stopped at its first decisive capture,
      which requested cancellation or met the condition with the tracker
      holding that capture's reading. */
  ghost predicate Waited(w: Wait, t: Tracker, frames: seq<Frame>, r: Polled) {
    r.Continue? ==>
      |frames| > 0
      && ((!Guard(w, t) && r.tracker == t && r.rest == frames)
          || exists k :: 0 <= k < |frames| && Undecided(w, frames, k) && r.rest == frames[k..]
               && (frames[k].exit || (Satisfied(w, frames[k]) && Reflects(w, r.tracker, frames[k]))))
  }

  /** Every poll loop waits as `Waited` says. */
  lemma PollWaited(w: Wait, t: Tracker, frames: seq<Frame>)
    ensures Waited(w, t, frames, Poll(w, t, frames))
  {
    if Guard(w, t) && Poll(w, t, frames).Continue? {
      PollContinuesAtFirstDecisive(w, t, frames);
    }
  }

  /** What a loop that did not let execution go on guarantees: a failed loop
      was entered and stopped at its first decisive capture, which was out
      of battle and neither requested cancellation nor met the condition;
      a stalled loop saw no decisive capture at all. */
  ghost predicate GaveUp(w: Wait, t: Tracker, frames: seq<Frame>, r: Polled) {
    && (r.Failed? ==>
          Guard(w, t)
          && exists k :: 0 <= k < |frames| && Undecided(w, frames, k)
               && !frames[k].exit && !Satisfied(w, frames[k]) && !frames[k].inBattle)
    && (r.Stalled? ==> Undecided(w, frames, |frames|))
  }

  /** Every poll loop gives up only as `GaveUp` says. */
  lemma PollGaveUp(w: Wait, t: Tracker, frames: seq<Frame>)
    ensures GaveUp(w, t, frames, Poll(w, t, frames))
  {
    var r := Poll(w, t, frames);
    if Guard(w, t) {
      if r.Failed? {
        PollFailsAtFirstDecisive(w, t, frames);
      } else if r.Stalled? {
        PollStallsOnlyIfUndecided(w, t, frames);
      }
    } else if r.Stalled? {
      assert |frames| == 0;
    }
  }

  /** The outcome of all of an action's waits. */
  datatype WaitResult =
    | Proceed(tracker: Tracker, placement: Placement, rest: seq<Frame>)
    | Abort(tracker: Tracker, placement: Placement)
    | Stuck

  /** Whether a loop is run at all: a non-zero cost delta, more kills than
      known, a non-zero cost, a non-negative cooling count. */
  predicate StageEnabled(w: Wait, t: Tracker) {
    match w
    case CostDelta(_, d) => d != 0
    case KillsAtLeast(n) => t.kills < n
    case CostAtLeast(n) => n != 0
    case CoolingExactly(n) => n >= 0
    case Available(_) => true
  }

  /** One enabled loop. The cost-delta loop takes its baseline from the
      cost read off the current capture just before the loop, so its first
      check compares the baseline with itself. */
  function RunStage(w: Wait, t: Tracker, frames: seq<Frame>): (r: Polled)
    ensures r.Failed? ==> !r.tracker.inBattle
    ensures !r.Stalled? ==> r.tracker.usage == t.usage && r.tracker.battlefield == t.battlefield
  {
    if w.CostDelta? then
      if |frames| == 0 then Stalled
      else Poll(CostDelta(frames[0].cost, w.delta), t.(cost := frames[0].cost), frames)
    else Poll(w, t, frames)
  }

  /** What one enabled or disabled wait guarantees. A disabled wait reads
      nothing; the cost-delta loop waits for a change relative to the cost
      on the first capture, with the tracker's cost set from that capture;
      any other loop waits as `Waited` says. */
  ghost predicate StageWaited(w: Wait, t: Tracker, frames: seq<Frame>, r: Polled) {
    if !StageEnabled(w, t) then r == Continue(t, frames)
    else if w.CostDelta? then
      r.Continue? ==> |frames| > 0 && Waited(CostDelta(frames[0].cost, w.delta), t.(cost := frames[0].cost), frames, r)
    else Waited(w, t, frames, r)
  }

  lemma RunStageWaited(w: Wait, t: Tracker, frames: seq<Frame>)
    requires StageEnabled(w, t)
    ensures StageWaited(w, t, frames, RunStage(w, t, frames))
  {
    if w.CostDelta? {
      if |frames| > 0 {
        PollWaited(CostDelta(frames[0].cost, w.delta), t.(cost := frames[0].cost), frames);
      }
    } else {
      PollWaited(w, t, frames);
    }
  }

  /** What one wait that did not let execution go on guarantees: it was
      enabled, and it gave up as `GaveUp` says (the cost-delta loop with its
      baseline taken from the first capture). */
  ghost predicate StageGaveUp(w: Wait, t: Tracker, frames: seq<Frame>, r: Polled) {
    !r.Continue? ==>
      StageEnabled(w, t)
      && if w.CostDelta? then
           |frames| == 0 || GaveUp(CostDelta(frames[0].cost, w.delta), t.(cost := frames[0].cost), frames, r)
         else GaveUp(w, t, frames, r)
  }

  lemma RunStageGaveUp(w: Wait, t: Tracker, frames: seq<Frame>)
    requires StageEnabled(w, t)
    ensures StageGaveUp(w, t, frames, RunStage(w, t, frames))
  {
    if w.CostDelta? {
      if |frames| > 0 {
        PollGaveUp(CostDelta(frames[0].cost, w.delta), t.(cost := frames[0].cost), frames);
      }
    } else {
      PollGaveUp(w, t, frames);
    }
  }

  /** The waits of `stages` went on one after the other: each, at its turn,
      waited as `StageWaited` says and handed its tracker and the remaining
      captures to the next. */
  ghost predicate WaitedInTurn(stages: seq<Wait>, t: Tracker, frames: seq<Frame>, r: Polled)
    decreases |stages|
  {
    if |stages| == 0 then r == Continue(t, frames)
    else exists mid: Polled :: mid.Continue? && StageWaited(stages[0], t, frames, mid)
                               && WaitedInTurn(stages[1..], mid.tracker, mid.rest, r)
  }

  /** A run of waits that lets execution go on waited for each of them in turn. */
  lemma {:induction false} PollAllWaited(stages: seq<Wait>, t: Tracker, frames: seq<Frame>)
    requires PollAll(stages, t, frames).Continue?
    ensures WaitedInTurn(stages, t, frames, PollAll(stages, t, frames))
    decreases |stages|
  {
    if |stages| > 0 {
      var first := if StageEnabled(stages[0], t) then RunStage(stages[0], t, frames) else Continue(t, frames);
      if StageEnabled(stages[0], t) {
        RunStageWaited(stages[0], t, frames);
      }
      assert first.Continue?;
      PollAllWaited(stages[1..], first.tracker, first.rest);
      assert StageWaited(stages[0], t, frames, first);
    }
  }

  /** The waits of `stages` stopped with `r` short of letting execution go
      on: the earlier ones went on in turn as `StageWaited` says, and then
      one that was enabled gave up with `r` as `StageGaveUp` says. */
  ghost predicate GaveUpInTurn(stages: seq<Wait>, t: Tracker, frames: seq<Frame>, r: Polled)
    decreases |stages|
  {
    && |stages| > 0
    && !r.Continue?
    && (StageGaveUp(stages[0], t, frames, r)
        || exists mid: Polled :: mid.Continue? && StageWaited(stages[0], t, frames, mid)
                                 && GaveUpInTurn(stages[1..], mid.tracker, mid.rest, r))
  }

  /** A run of waits that fails or stalls does so in one of its waits,
      after the earlier ones went on. */
  lemma {:induction false} PollAllGaveUp(stages: seq<Wait>, t: Tracker, frames: seq<Frame>)
    requires !PollAll(stages, t, frames).Continue?
    ensures GaveUpInTurn(stages, t, frames, PollAll(stages, t, frames))
    decreases |stages|
  {
    var r := PollAll(stages, t, frames);
    var first := if StageEnabled(stages[0], t) then RunStage(stages[0], t, frames) else Continue(t, frames);
    if first.Continue? {
      if StageEnabled(stages[0], t) {
        RunStageWaited(stages[0], t, frames);
      }
      assert StageWaited(stages[0], t, frames, first);
      assert r == PollAll(stages[1..], first.tracker, first.rest);
      PollAllGaveUp(stages[1..], first.tracker, first.rest);
    } else {
      RunStageGaveUp(stages[0], t, frames);
      assert r == first;
    }
  }

  /** The loops of `stages` one after the other, each on the captures the
      previous one left; a disabled loop reads and changes nothing. */
  function PollAll(stages: seq<Wait>, t: Tracker, frames: seq<Frame>): (r: Polled)
    ensures r.Failed? ==> !r.tracker.inBattle
    ensures !r.Stalled? ==> r.tracker.usage == t.usage && r.tracker.battlefield == t.battlefield
    ensures (forall k :: 0 <= k < |stages| ==> !StageEnabled(stages[k], t)) ==> r == Continue(t, frames)
    decreases |stages|
  {
    if |stages| == 0 then Continue(t, frames)
    else
      var first := if StageEnabled(stages[0], t) then RunStage(stages[0], t, frames) else Continue(t, frames);
      match first
      case Continue(t', f') =>
        assert forall k :: 1 <= k < |stages| ==> stages[k] == stages[1..][k - 1];
        PollAll(stages[1..], t', f')
      case _ => first
  }

  /** The counter waits of `a` in the order the executor runs them: cost
      delta, kills, absolute cost, cooling count. */
  function CounterWaits(a: Action): (r: seq<Wait>)
    ensures |r| == 4
    ensures r[0].CostDelta? && r[0].delta == a.costChanges
    ensures r[1] == KillsAtLeast(a.kills) && r[2] == CostAtLeast(a.costs) && r[3] == CoolingExactly(a.cooling)
    ensures forall t: Tracker ::
              && (StageEnabled(r[0], t) <==> a.costChanges != 0)
              && (StageEnabled(r[1], t) <==> t.kills < a.kills)
              && (StageEnabled(r[2], t) <==> a.costs != 0)
              && (StageEnabled(r[3], t) <==> a.cooling >= 0)
  {
    [CostDelta(0, a.costChanges), KillsAtLeast(a.kills), CostAtLeast(a.costs), CoolingExactly(a.cooling)]
  }

  /** All waits of `a`: the counter waits and then, for a Deploy outside
      bullet time, the availability of the resolved operator. */
  function WaitCondition(a: Action, inBulletTime: bool, p: Placement, t: Tracker, frames: seq<Frame>): (r: WaitResult)
    ensures r.Abort? ==> !r.tracker.inBattle
    ensures !r.Stuck? ==> r.tracker.usage == t.usage && r.tracker.battlefield == t.battlefield
    ensures r.Proceed? || r.Abort? ==> Extends(p, r.placement)
    ensures (inBulletTime || !a.kind.Deploy?) && (r.Proceed? || r.Abort?) ==> r.placement == p
    ensures !inBulletTime && a.kind.Deploy? && r.Proceed? ==> a.name in r.placement
    ensures (a.costChanges == 0 && a.kills <= t.kills && a.costs == 0 && a.cooling < 0
               && (inBulletTime || !a.kind.Deploy?)) ==> r == Proceed(t, p, frames)
  {
    match PollAll(CounterWaits(a), t, frames)
    case Stalled => Stuck
    case Failed(t1) => Abort(t1, p)
    case Continue(t1, f1) =>
      if inBulletTime || !a.kind.Deploy? then Proceed(t1, p, f1)
      else
        var (p', name) := GetNameFromGroup(p, a.name);
        match Poll(Available(name), t1, f1)
        case Stalled => Stuck
        case Failed(t2) => Abort(t2, p')
        case Continue(t2, f2) => Proceed(t2, p', f2)
  }

  /** An action that proceeds waited for its counter waits in turn and then,
      for a Deploy outside bullet time, for its resolved operator to be
      available: it is available on the capture execution goes on from,
      unless that capture requested cancellation or the battle had ended. */
  lemma WaitConditionWaited(a: Action, inBulletTime: bool, p: Placement, t: Tracker, frames: seq<Frame>)
    requires WaitCondition(a, inBulletTime, p, t, frames).Proceed?
    ensures var r := WaitCondition(a, inBulletTime, p, t, frames);
            (inBulletTime || !a.kind.Deploy?) ==> WaitedInTurn(CounterWaits(a), t, frames, Continue(r.tracker, r.rest))
    ensures var r := WaitCondition(a, inBulletTime, p, t, frames);
            !inBulletTime && a.kind.Deploy? ==>
              a.name in r.placement
              && exists mid: Polled :: mid.Continue? && WaitedInTurn(CounterWaits(a), t, frames, mid)
                   && Waited(Available(r.placement[a.name]), mid.tracker, mid.rest, Continue(r.tracker, r.rest))
    ensures var r := WaitCondition(a, inBulletTime, p, t, frames);
            !inBulletTime && a.kind.Deploy? ==>
              |r.rest| > 0 && (IsAvailable(r.tracker.roster, r.placement[a.name]) || r.rest[0].exit || !r.tracker.inBattle)
  {
    var r := WaitCondition(a, inBulletTime, p, t, frames);
    var mid := PollAll(CounterWaits(a), t, frames);
    PollAllWaited(CounterWaits(a), t, frames);
    if !inBulletTime && a.kind.Deploy? {
      var (p', name) := GetNameFromGroup(p, a.name);
      var last := Poll(Available(name), mid.tracker, mid.rest);
      assert last == Continue(r.tracker, r.rest);
      assert r.placement[a.name] == name;
      PollWaited(Available(name), mid.tracker, mid.rest);
      AvailableWaited(name, mid.tracker, mid.rest, last);
    } else {
      assert mid == Continue(r.tracker, r.rest);
    }
  }

  /** A wait for an operator that lets execution go on leaves the operator
      available on the current capture, unless that capture requested
      cancellation or the battle had ended. */
  lemma AvailableWaited(name: string, t: Tracker, frames: seq<Frame>, r: Polled)
    requires r.Continue? && Waited(Available(name), t, frames, r)
    ensures |r.rest| > 0
    ensures IsAvailable(r.tracker.roster, name) || r.rest[0].exit || !r.tracker.inBattle
  {
    if Guard(Available(name), t) {
      var k :| 0 <= k < |frames| && Undecided(Available(name), frames, k) && r.rest == frames[k..]
                && (frames[k].exit || (Satisfied(Available(name), frames[k]) && Reflects(Available(name), r.tracker, frames[k])));
      assert r.rest[0] == frames[k];
    }
  }

  /** How the waits of an action ended, as a single loop's outcome. */
  function Outcome(r: WaitResult): Polled {
    match r
    case Proceed(t, _, rest) => Continue(t, rest)
    case Abort(t, _) => Failed(t)
    case Stuck => Stalled
  }

  /** An action whose waits abort or get stuck stopped in one of them: either
      a counter wait gave up after the earlier ones went on, or, for a
      Deploy outside bullet time, all counter waits went on and the wait for
      the resolved operator gave up. An abort always met an out-of-battle
      capture that neither requested cancellation nor met its condition. */
  lemma WaitConditionGaveUp(a: Action, inBulletTime: bool, p: Placement, t: Tracker, frames: seq<Frame>)
    requires !WaitCondition(a, inBulletTime, p, t, frames).Proceed?
    ensures var o := Outcome(WaitCondition(a, inBulletTime, p, t, frames));
            || GaveUpInTurn(CounterWaits(a), t, frames, o)
            || (&& !inBulletTime && a.kind.Deploy?
                && exists mid: Polled :: mid.Continue? && WaitedInTurn(CounterWaits(a), t, frames, mid)
                     && GaveUp(Available(GetNameFromGroup(p, a.name).1), mid.tracker, mid.rest, o))
  {
    var r := WaitCondition(a, inBulletTime, p, t, frames);
    var mid := PollAll(CounterWaits(a), t, frames);
    if mid.Continue? {
      PollAllWaited(CounterWaits(a), t, frames);
      var name := GetNameFromGroup(p, a.name).1;
      assert Outcome(r) == Poll(Available(name), mid.tracker, mid.rest);
      PollGaveUp(Available(name), mid.tracker, mid.rest);
    } else {
      PollAllGaveUp(CounterWaits(a), t, frames);
      assert Outcome(r) == mid;
    }
  }

  /** A cost-delta wait whose delta is negative but does not take the
      baseline below zero compares with `>=`, so the capture that set the
      baseline already meets it. */
  lemma NegativeDeltaMetAtOnce(baseline: int, delta: int)
    requires delta < 0 && baseline + delta >= 0
    ensures CostDeltaMet(baseline, delta, baseline)
  {
  }

  /** With cost 20 and delta -10 the wait is over on its first capture. */
  lemma CostDeltaScenario(t: Tracker, f: Frame)
    requires f.cost == 20 && !f.exit && t.inBattle
    ensures RunStage(CostDelta(0, -10), t, [f]) == Continue(t.(cost := 20), [f])
  {
  }
}
